=== FILE: README.md ===
# A verified model of a small Python path tracer

This project models the geometric core of a "ray tracing in one weekend" style path tracer
written in Python. The model covers:

- closed ranges of ray parameters with `±inf` sentinels;
- axis-aligned bounding boxes and their three-slab ray test;
- a bounding-volume hierarchy (BVH) with a median split and pruned traversal;
- the brute-force closest-hit scan over a list of objects;
- the hit-record orientation rule;
- the half-b quadratic ray–sphere test;
- 3-vector algebra and ray parametrisation;
- the scatter rules of the Lambertian, metal and dielectric materials;
- the depth-bounded recursive colour of a ray.

Floats are modelled as Dafny `real`, extended with `±inf` where the source uses `math.inf`
(`ExtReals.ExtReal`). Rounding is not modelled.

Some things are inputs instead of computed values:

- `math.sqrt` is a value `s >= 0` with `s * s == x` (`Vectors.IsSqrt`).
- Random draws are plain inputs (`Scattering.Draws`). The BVH's random axis is a function
  of the sub-range being built.
- The hit test of a primitive is a function `HitFn<T>`. The source has two hit interfaces:
  - `BVH_Node.hit` returns an optional record;
  - `Sphere.hit` and `HittableList.hit` fill an out-parameter and return a bool.

  Both are modelled as one function returning `Option<HitRecord>`. `None` is `False`, and
  the filled record is `True`.

Wherever the source would raise, the model has a precondition instead:

- `ZeroDivisionError` in the slab test needs a nonzero direction component (`Rays.NonZeroDir`).
- The sphere test needs a nonzero direction: with `a == 0` the discriminant is 0 and the
  first root divides by zero. It also needs a nonzero radius, although the source divides
  by the radius only after a root has passed the range test (`src/sphere.py:45`).
- `normalize` of a zero vector is excluded.
- `1 / ir` on the front face of a dielectric needs `ir != 0`.
- The Schlick reflectance needs `1 + ratio != 0`.
- The image height needs a nonzero aspect ratio, because `image_width / aspect_ratio`
  divides by it (`src/camera.py:30`).
- Building a BVH from an empty list is excluded. On a span of 0 the source keeps creating
  child nodes for the same empty span and ends in `RecursionError` (`src/bvh.py:135-145`).

The modules follow the source files:

| module | file |
|---|---|
| `ExtReals`, `Intervals` | `interval.py` |
| `Vectors` | `vec3.py` |
| `Rays` | `ray.py` |
| `Aabb` | `aabb.py` |
| `Hittable` | `hittable.py` |
| `Spheres` | `sphere.py` |
| `HittableLists` | `hittable_list.py` |
| `Sorting`, `Bvh` | `bvh.py` |
| `Materials`, `Scattering` | `material.py` |
| `Cameras` | `camera.py` |

`Scenes` ties the sphere test to the list scan. `Options` is the optional-value type.

The main theorems:

- **`Aabb.HitMeaning`**: the staged slab test says yes exactly when the ray is inside the
  box, within the range, at two different parameters.
- **`HittableLists.ScanClosest`**: if every object reports its nearest hit below the upper
  bound it is asked about, the list scan returns a hit of minimum `t` over all objects.
  `ClosestUnique` shows any two such answers agree on hit/miss and on `t`.
- **`Bvh.TraverseIsScan`**: traversing a well-boxed tree returns exactly what the list scan
  returns on the tree's leaves in left-to-right order. Well-boxed means each node's box is
  the merge of its children's boxes.
- **`Bvh.BvhAgreesWithList`**: the tree built from a list agrees with the scan of the
  original list on hit/miss and on `t`, and its answer is a closest hit.
- **`Scenes.SpheresScanClosest`**: spheres satisfy the hypothesis of `ScanClosest`, because
  `Spheres.SphereHitCut` shows that asking a sphere with a lower upper bound only cuts its
  answer.
- **`Cameras.ColorInUnitCube`**: if every attenuation lies in the unit cube, the colour of
  every ray does too.

## Model

| member | source | states |
|---|---|---|
| ExtReals.Min | src/interval.py:25 | `min` of two extended reals is one of them and below both |
| ExtReals.Max | src/interval.py:26 | `max` of two extended reals is one of them and above both |
| ExtReals.LeTotalOrder | src/interval.py:40-48 | `<=` on floats with infinities is reflexive, total, antisymmetric and transitive |
| ExtReals.Plus | src/interval.py:34-38 | adding a finite padding to a bound keeps it finite or infinite as it was, and shifts a finite bound by exactly that amount |
| ExtReals.Minus | src/interval.py:29-32 | `upper - lower` is undefined (NaN) exactly for `inf - inf` and `-inf - -inf`, and is the real difference on finite bounds |
| ExtReals.Times | src/aabb.py:55-60 | multiplying a bound by the inverse direction keeps finiteness, and a negative factor swaps `inf` and `-inf` |
| ExtReals.PlusMonotone | src/aabb.py:56-57 | subtracting the origin preserves the order of slab bounds |
| ExtReals.TimesMonotone | src/aabb.py:56-60 | scaling by a positive inverse direction keeps the order of slab bounds, and a negative one reverses it |
| Intervals.Default | src/interval.py:9-15 | the default-constructed interval is `EMPTY` and contains no value |
| Intervals.Merge | src/interval.py:21-27 | the merge encloses both inputs and contains every value either input contains |
| Intervals.MergeAlgebra | src/interval.py:21-27 | merge is commutative, and merging with `EMPTY` on either side gives back the other interval |
| Intervals.MergeLeast | src/interval.py:21-27 | any interval enclosing both inputs encloses their merge |
| Intervals.Size | src/interval.py:29-32 | the size of `EMPTY` is `-inf`, that of `UNIVERSE` is `+inf`, and a finite interval's size is `upper - lower` |
| Intervals.Expanded | src/interval.py:34-38 | a non-negative padding encloses the original; on a finite interval the size grows by exactly `delta` and the midpoint is kept, so each end moves outward by `delta/2`; infinite ends are unchanged |
| Intervals.Clamp | src/interval.py:50-57 | a value below the interval gives `lower`, otherwise a value above it gives `upper`, and a contained value is returned unchanged; on an ordered interval the result is contained in it |
| Intervals.ClampMonotone | src/interval.py:50-57 | on an ordered interval clamping preserves order |
| Intervals.ClampIdempotent | src/interval.py:50-57 | clamping twice equals clamping once |
| Intervals.SentinelsContain | src/interval.py:59-60 | `EMPTY` contains nothing and `UNIVERSE` contains every value |
| Intervals.SurroundsContains | src/interval.py:40-48 | surrounded values are contained; the endpoints of an ordered interval are contained but never surrounded |
| Intervals.WithinContains | src/interval.py:40-48 | containment and strict containment carry over to an enclosing interval |
| Vectors.Neg | src/vec3.py:30-33 | `v + (-v)` is the zero vector |
| Vectors.Sub | src/vec3.py:61-67 | `a - b == a + (-b)` and `(a - b) + b == a` |
| Vectors.SubIsAddNeg | src/vec3.py:30-67 | subtraction is addition of the negation, negation is an involution, `a - a` is zero |
| Vectors.Mul | src/vec3.py:84-92 | scaling by 1 is the identity and scaling by 0 gives the zero vector |
| Vectors.Hadamard | src/vec3.py:84-92 | the componentwise product with white leaves a colour unchanged |
| Vectors.Add | src/vec3.py:35-41 | componentwise sum; its algebra is stated by `VectorAlgebra`, `Sub` and `DotAdd` |
| Vectors.VectorAlgebra | src/vec3.py:35-97 | addition, the componentwise product and `dot` are commutative |
| Vectors.LengthSquaredScale | src/vec3.py:84-97 | scaling by `s` scales `length_squared` by `s*s` |
| Vectors.Div | src/vec3.py:110-119 | division by 0 is the error case, and otherwise the quotient times the divisor gives back the vector |
| Vectors.LengthSquaredNonNegative | src/vec3.py:140-143 | `length_squared` is never negative |
| Vectors.LengthSquaredPositive | src/vec3.py:140-143 | `length_squared` is zero for the zero vector and positive for every other vector |
| Vectors.NearZero | src/vec3.py:145-149 | every component below `1e-8` in absolute value; what it implies is stated by `NearZeroIsShort` |
| Vectors.NearZeroIsShort | src/vec3.py:145-149 | the zero vector is near zero, and a near-zero vector is shorter than `sqrt(3) * 1e-8` |
| Vectors.Dot | src/vec3.py:162-165 | the dot product; its symmetry and linearity are stated by `DotSymmetric` and `DotAdd` |
| Vectors.DotSymmetric | src/vec3.py:162-165 | `dot(a, b) == dot(b, a)` |
| Vectors.DotAdd | src/vec3.py:35-41 | `dot` distributes over vector addition in its first argument |
| Vectors.Cross | src/vec3.py:167-170 | the cross product is orthogonal to both factors |
| Vectors.CrossAnticommutes | src/vec3.py:167-170 | `cross(b, a) == -cross(a, b)` |
| Vectors.CrossLagrange | src/vec3.py:167-170 | the Lagrange identity: `length_squared(cross(a, b))` is `length_squared(a) * length_squared(b) - dot(a, b)^2`, which fixes the length of the cross product |
| Vectors.CrossRightHanded | src/vec3.py:167-170 | the cross product is right-handed: `cross(x, y) == z` for the unit axes |
| Vectors.Normalize | src/vec3.py:172-174 | the normalized vector times the length gives back the vector |
| Vectors.NormalizeUnit | src/vec3.py:172-174 | dividing by the true length gives a unit vector |
| Vectors.NormalizeKeepsSign | src/vec3.py:172-174 | normalizing keeps the sign of every dot product |
| Vectors.Reflect | src/vec3.py:202-205 | the reflection differs from `v` by `2*dot(v, n)*n` |
| Vectors.ReflectUnit | src/vec3.py:202-205 | for a unit normal, reflection negates the normal component, keeps the length, and reflecting twice gives back `v` |
| Vectors.ReflectLength | src/vec3.py:202-205 | for a unit normal, reflection keeps the squared length |
| Vectors.Refract | src/vec3.py:207-216 | the refracted vector is the perpendicular part plus `-sqrt(abs(1 - length_squared(perp)))` times the normal |
| Vectors.RefractThroughSurface | src/vec3.py:207-216 | for a unit normal, the refracted ray has normal component `-sqrt(...)`; it has unit length when the perpendicular part is at most unit length |
| Rays.At | src/ray.py:13-14 | `at(t) - orig == t * dir` |
| Rays.AtAffine | src/ray.py:13-14 | `at(0)` is the origin, `at(1)` is `origin + dir`, and `at(t + s) == at(t) + s*dir` |
| Aabb.FromCorners | src/aabb.py:15-22 | every slab is ordered and contains the matching coordinate of both corners |
| Aabb.FromCornersLeast | src/aabb.py:15-22 | any box whose slabs contain both corners' coordinates encloses the spanned box, so each slab is exactly `[min, max]` of the corners |
| Aabb.FromCornersSymmetric | src/aabb.py:15-22 | the box does not depend on the order of the corners |
| Aabb.Merge | src/aabb.py:24-33 | every slab of the merged box encloses the matching slabs of both boxes |
| Aabb.MergeLeastBox | src/aabb.py:24-33 | the merge is the least box enclosing both, and it is commutative |
| Aabb.Axis | src/aabb.py:35-42 | `axis(1)` is the y slab, `axis(2)` the z slab, and any other index the x slab |
| Aabb.Clip | src/aabb.py:55-68 | one axis of the test keeps exactly the parameters `t` of the window at which `o + t*d` lies in the slab (for either sign of `d`), and its ends are the later entry and the earlier exit |
| Aabb.SlabMeaning | src/aabb.py:55-60 | the ray is inside a slab at `t` exactly when `t` lies between the slab entry and the slab exit, the faces swapped for a negative direction |
| Aabb.EntryMeaning | src/aabb.py:55-60 | `t` is past the entry iff the ray is past the lower face (positive direction) or the upper face (negative direction) |
| Aabb.ExitMeaning | src/aabb.py:55-60 | `t` is before the exit iff the ray is before the upper face (positive direction) or the lower face (negative direction) |
| Aabb.Hit | src/aabb.py:44-102 | the staged three-axis test with early exits; what it decides is stated by `HitMeaning` and `HitClosedForm` |
| Aabb.HitClosedForm | src/aabb.py:44-102 | the staged test with early exits is true iff the latest entry (over the range's lower end and all three slabs) comes strictly before the earliest exit |
| Aabb.HitMeaning | src/aabb.py:44-102 | the box is hit iff there are two parameters `t1 < t2` in the range at which the ray is inside the box, so grazing an edge or touching only at a range end is a miss |
| Aabb.WindowAt | src/aabb.py:44-102 | between the latest entry and the earliest exit lie exactly the parameters at which the ray is in range and inside the box |
| Aabb.SlabWithin | src/aabb.py:55-60 | a slab inside another is entered no earlier and left no later |
| Aabb.HitMonotone | src/aabb.py:44-102 | a ray that hits a box within a range also hits any enclosing box within any wider range |
| Aabb.HitMerge | src/aabb.py:24-102 | a ray that hits either box hits their merge |
| Aabb.EmptyBoxMissed | src/aabb.py:10-13 | the default box (three empty slabs) is never hit |
| Hittable.SetFaceNormal | src/hittable.py:15-20 | `front_face` iff `dot(dir, outward) < 0`; the normal is `outward` on the front face and `-outward` otherwise (the grazing case `dot == 0` included), points against the ray, and is unit when `outward` is; other fields are kept |
| Hittable.SetFaceNormalIdempotent | src/hittable.py:15-20 | orienting twice is orienting once |
| Hittable.SetFaceNormalScaleInvariant | src/hittable.py:15-20 | the orientation depends only on the direction of the ray, not its length |
| Hittable.Copy | src/hittable.py:22-27 | the copy equals the other record in all five fields |
| Spheres.IsRootQuadratic | src/sphere.py:24-29 | `t` puts the ray on the sphere iff it is a root of `a t^2 + 2 half_b t + c` |
| Spheres.RootsAreRoots | src/sphere.py:24-39 | with a non-negative discriminant, the ray meets the sphere exactly at the two candidate roots, the smaller first |
| Spheres.NoRoots | src/sphere.py:29-31 | with a negative discriminant the ray misses the sphere everywhere |
| Spheres.Record | src/sphere.py:43-47 | the record holds `t`, `at(t)` and the sphere's material; `front_face` iff the ray runs against `(p - center) / radius`, and the normal is that vector on the front face and its negation otherwise |
| Spheres.OnSphereUnitNormal | src/sphere.py:43-47 | at a point on the sphere, `(p - center) / radius` has unit length |
| Spheres.SphereHit | src/sphere.py:16-49 | a reported hit lies on the sphere strictly inside the range, with the hit point, the sphere's material and a unit normal against the ray, and is the record `Record` fills for its root (oriented normal and `front_face` included) |
| Spheres.SphereHitNearest | src/sphere.py:16-49 | a reported hit is the smallest root strictly inside the range, and there is no hit iff no root is strictly inside it |
| Spheres.SphereHitCut | src/sphere.py:16-49 | asking with the upper bound lowered to `c` gives the full answer if its `t` is below `c`, and no hit otherwise |
| HittableLists.New | src/hittable_list.py:6-9 | a list built with an object holds just that object, and otherwise it is empty |
| HittableLists.Clear | src/hittable_list.py:11-12 | a cleared list is empty |
| HittableLists.Add | src/hittable_list.py:14-15 | `add` appends the object and keeps the earlier ones in order |
| HittableLists.Scan | src/hittable_list.py:17-29 | the closest-so-far loop as a left fold; its meaning is stated by `ScanClosest`, `ScanAllMiss`, `ScanAppend` and `ListHit` |
| HittableLists.ScanOfListOperations | src/hittable_list.py:6-29 | an empty list never hits, a one-object list hits as its object, and an appended object is asked below the best hit so far |
| HittableLists.Narrow | src/hittable_list.py:20-26 | each object is asked with the same lower bound; before any hit the range is `ray_t` unchanged, and after a hit its upper end is that hit's `t` (`closest_so_far`) |
| HittableLists.ScanNeverIncreases | src/hittable_list.py:20-26 | once the list has a hit, a further object reporting in-range hits keeps a hit and never raises its `t`: `closest_so_far` never increases |
| HittableLists.Combine | src/hittable_list.py:24-27 | the scan result is a hit iff some earlier or later answer is |
| HittableLists.ListHit | src/hittable_list.py:17-29 | the loop returns true iff the scan hits, `rec` is the scan's record on true, and `rec` is unchanged on false |
| HittableLists.ScanAppend | src/hittable_list.py:17-29 | scanning `a + b` scans `b` below the best hit found in `a` |
| HittableLists.ScanAllMiss | src/hittable_list.py:17-29 | the list misses iff every object misses when asked with the full range |
| HittableLists.ScanFromObject | src/hittable_list.py:22-27 | a returned record is one some object reported for a range with the same lower bound |
| HittableLists.ScanClosest | src/hittable_list.py:17-29 | if each object reports its nearest hit, the scan result has minimum `t` over all objects, and is a miss iff every object misses |
| HittableLists.ClosestUnique | src/hittable_list.py:17-29 | two closest-hit answers over the same objects agree on hit/miss and on `t` |
| HittableLists.ScanInRange | src/hittable_list.py:17-29 | if each object reports hits strictly inside the range, so does the scan |
| Sorting.Insert | src/bvh.py:136 | insertion keeps sortedness and adds exactly the one element |
| Sorting.Sort | src/bvh.py:136 | `sorted(..., key=axis_key)` returns a permutation of its input ordered by the key |
| Bvh.Build | src/bvh.py:113-147 | the node has the given depth, its leaves are exactly the input objects, each box is the merge of its children's boxes, and depths grow by one per level |
| Bvh.SortAndSplit | src/bvh.py:135-145 | the sub-range is permuted and split at `span // 2` into two non-empty halves, with every key on the left no larger than every key on the right |
| Bvh.BuildTree | src/bvh.py:62-68 | the root has depth 1, is well boxed, and holds exactly the list's objects |
| Bvh.BuildSpanOne | src/bvh.py:123-126 | for a span of 1 both children are the same object |
| Bvh.BuildSpanTwo | src/bvh.py:127-134 | for a span of 2 the first object goes left iff `box_compare` holds on the chosen axis, and otherwise the second goes left |
| Bvh.BuildSplitOrdered | src/bvh.py:135-145 | for a span of 3 or more both children are nodes, and every left leaf's key is no larger than every right leaf's key on the axis used for sorting |
| Bvh.AxisKeyNeverY | src/bvh.py:116-117 | axes 0 and 1 both sort by the x key and every other axis by the z key |
| Bvh.BoxCompareByAxis | src/bvh.py:95-102 | `box_compare` compares the lower bounds of the slab selected by the axis, y included |
| Bvh.LeafBoxesWithin | src/bvh.py:147 | in a well-boxed tree every leaf's box lies inside the box of each node above it |
| Bvh.Traverse | src/bvh.py:28-57 | `BVH_Node.hit`: box test, left child, right child below the left hit; its meaning is stated by `TraverseIsScan` and `RightHitCloser` |
| Bvh.TraverseIsScan | src/bvh.py:28-57 | with sound boxes, traversal returns exactly the list scan over the leaves in left-to-right order |
| Bvh.RightHitCloser | src/bvh.py:42-57 | when both children hit, the right child's hit has `t` strictly below the left child's |
| Bvh.TreeHit | src/bvh.py:87-93 | `BVH_Tree.hit` delegates to the root; its meaning is stated by `BvhAgreesWithList` |
| Bvh.BvhAgreesWithList | src/bvh.py:87-93 | the tree built from a list agrees with the list scan on hit/miss and on `t`, and its answer is a closest hit |
| Materials.MakeMetal | src/material.py:36-38 | fuzz is capped at 1 and kept when it is at most 1; there is no lower clamp |
| Materials.Reflectance | src/material.py:56-60 | Schlick's approximation; its ends and range are stated by `ReflectanceEnds` and `ReflectanceBounds` |
| Materials.ReflectanceEnds | src/material.py:56-60 | Schlick's reflectance is `r0` at cosine 1 and 1 at cosine 0 |
| Materials.ReflectanceBounds | src/material.py:56-60 | for a positive ratio and a cosine in [0, 1] the reflectance lies between `r0` and 1 |
| Scattering.RefractionRatio | src/material.py:66 | on the front face the ratio is the reciprocal of `ir` (`ratio * ir == 1`), on the back face it is `ir` |
| Scattering.LambertianDirection | src/material.py:20-24 | the direction is the normal alone exactly when the normal plus the unit draw is near zero, and that sum otherwise |
| Scattering.LambertianNotDegenerate | src/material.py:20-24 | with a unit normal the chosen direction is never near zero |
| Scattering.DielectricDirection | src/material.py:66-77 | the dielectric's choice of direction; its cases are stated by `DielectricDirectionCases` |
| Scattering.DielectricDirectionCases | src/material.py:72-77 | the ray is mirrored under total internal reflection and when the Schlick reflectance exceeds the draw, and refracted otherwise |
| Scattering.Scatter | src/material.py:18-82 | the scattered ray starts at the hit point. Lambertian and metal attenuate by the albedo and the dielectric by white. Lambertian and dielectric always scatter; metal scatters iff the new direction has a positive normal component. The direction is the Lambertian choice, the mirror direction plus `fuzz` times the unit draw, or the dielectric choice on the normalized incoming direction |
| Scattering.AttenuationInUnitCube | src/material.py:18-82 | a material whose albedo lies in the unit cube attenuates into the unit cube |
| Scattering.PerfectMirror | src/material.py:40-50 | a metal with fuzz 0 scatters iff the ray arrives against the normal, along the mirror direction |
| Scattering.TotalInternalReflection | src/material.py:66-75 | when `ratio * sin_theta > 1` the dielectric mirrors the ray |
| Scattering.EnteringDenserRefracts | src/material.py:66-72 | entering a medium with `ir >= 1` through the front face never triggers total internal reflection |
| Scenes.SphereIsNearest | src/sphere.py:16-49 | a sphere reports its nearest hit for every lowered upper bound, strictly inside the range |
| Scenes.SpheresScanClosest | src/hittable_list.py:17-29 | the scan over a list of spheres returns a closest sphere hit, strictly inside the range |
| Cameras.Sky | src/camera.py:129-131 | for a unit direction the background has red in [0.5, 1], green in [0.7, 1] and blue exactly 1 |
| Cameras.SkyEnds | src/camera.py:129-131 | straight down the sky is white, and straight up it is (0.5, 0.7, 1.0) |
| Cameras.RayColor | src/camera.py:114-119 | once the bounce limit is spent the colour is black |
| Cameras.RayColorCases | src/camera.py:121-131 | a ray that misses the scene (queried on `(0.001, inf)`) shows the sky, a hit that does not scatter is black, and a hit that scatters is the attenuation times the colour of the scattered ray at `depth - 1` |
| Cameras.ColorInUnitCube | src/camera.py:114-131 | with attenuations in the unit cube and unit directions, every colour lies in the unit cube |
| Cameras.DepthBounded | src/camera.py:114-126 | the colour depends only on the scatters at depths 1 to `depth`, so the recursion ends within `max_depth` bounces |
| Cameras.Truncate | src/camera.py:30 | `int(x)` truncates toward zero |
| Cameras.ImageHeight | src/camera.py:30 | the image height is at least 1, and is the truncated `width / aspect_ratio` when that is at least 1 |

## Left out

- Output and I/O: the PPM header, the pixel loops, progress and timing messages on stderr,
  and `write_color`. These are output plumbing.
- The camera basis and ray generation (`Camera.__init__`, `_get_ray`, defocus sampling).
  They are trigonometry and random sampling. `_ray_color` takes the scene, the material's
  scatter and the normalization of a direction as inputs.
- Random sources (`rand_float`, `Vector.random`, `rand_unit_vec`, `rand_in_unit_disk`,
  `rand_on_hemisphere`, `random.randint`): their outputs are inputs of the model.
- `math.sqrt`, `Vector.length` and `math.pow`: square roots are supplied values
  constrained by `Vectors.IsSqrt`. `math.pow(x, 5)` is the exact power `Materials.Pow`.
- IEEE floating point: rounding, NaN and overflow are not modelled. Reals and `±inf` are
  modelled exactly.
- The diagnostic counters `settings.count` and `settings.max_depth`, `print_bfs`, and the
  `__str__`/`__repr__` methods. They have no effect on results.
- The dynamic `TypeError` branches of `Vector`: the types rule them out. Neither are
  `__iadd__`/`__isub__`/`__imul__`/`__itruediv__` modelled; the core does not use them.
- `Sphere` has no `bounding_box`. `Bvh` takes the box of an object as an input
  (`box: T -> AABB`), and its theorems assume only that an object hit inside its box is
  hit (`Bvh.BoxSound`).
- `utils.py`, which the source imports `Ray`, `Interval` and `dot` from, is not part of
  this model. The model uses the classes of `ray.py`, `interval.py` and `vec3.py`.
- `AABB.hit` reads `_r.origin`, while `Ray` stores its origin as `orig`. `Aabb.Hit` uses
  the ray's origin.
- BVH leaves are the objects themselves rather than Python object references. A span of 1
  therefore gives two equal leaves.
- Sorting.Sort: Python's `sorted` is stable, and the model states only that the result is
  a sorted permutation. No property of the tree depends on the order of equal keys.
- Vectors.Refract: `refract` also computes an unused `sin_theta = sqrt(1 - cos_theta^2)`,
  which raises when `cos_theta < -1`. The model leaves this out of the precondition. Inside
  `Dielectric.scatter` the same square root is taken first and is required by
  `Scattering.Defined`.
- Cameras.RayColor: `normalize(r.dir)` on a miss is an input function `unit`. The bound
  `|unit(v).y| <= 1` is a hypothesis of `ColorInUnitCube`. A zero scattered direction,
  which would raise in `normalize`, is therefore not excluded.
- Cameras.RayColor: `rec.mat.scatter(...)` is an input `scatter(ray, rec, depth)`.
  `Scattering.Scatter` models it for one call, with that call's draws.
- Scattering.Scatter: the preconditions exclude the calls that raise: a zero incoming
  direction, `ir == 0` on a front face, `1 + ratio == 0`, and `1 - cos_theta^2 < 0`.
- Spheres.SphereHit: a zero direction (`a == 0`) always raises `ZeroDivisionError` and is
  excluded. A zero radius raises only when a root passes the range test; when the
  discriminant is negative or no root is in range the source returns `False`. The model
  excludes every zero-radius sphere, so it says nothing about those misses.
- Bvh.Build: an empty object list is excluded. The source's construction recurses on the
  same empty span until Python raises `RecursionError`.

## Notes on the code

- The two hit interfaces do not fit together as written. `BVH_Node.hit` calls
  `self.left.hit(_r, ray_t)` with two arguments (`src/bvh.py:42`, `src/bvh.py:48`), but
  `Sphere.hit` and `HittableList.hit` take a third `rec` argument (`src/sphere.py:16`,
  `src/hittable_list.py:17`), so a BVH over spheres raises `TypeError` at its first leaf.
  `Camera._ray_color` calls `_world.hit` with three arguments (`src/camera.py:122`), but
  `BVH_Tree.hit` takes two (`src/bvh.py:87`). The model gives every hit test the one
  shape `HitFn<T>`. `Bvh.BvhAgreesWithList` and `Scenes.SpheresScanClosest` therefore
  combine pieces the program cannot run together; they state what the combination
  computes once the signatures agree.

- `Dielectric.reflectance` gives `r0` at cosine 1 and 1 at cosine 0 (`ReflectanceEnds`).
- The Metal constructor caps the fuzz above but does not clamp it below (`MakeMetal`).
- The BVH construction picks axis 0, 1 or 2, but axes 0 and 1 both sort by the x key, so
  the y key is never used for sorting (`AxisKeyNeverY`). The span-2 comparison does use
  the y slab (`BoxCompareByAxis`). The model keeps this as written. No correctness property
  depends on the axis used: `BvhAgreesWithList` holds for every axis choice.

=== FILE: aabb.dfy ===
/** Axis-aligned bounding boxes (`AABB` in aabb.py): one interval ("slab") per axis. */
module Aabb {
  import opened ExtReals
  import opened Intervals
  import opened Vectors
  import opened Rays

  datatype AABB = AABB(x: Interval, y: Interval, z: Interval)

  /** The box built with no arguments: every slab is the empty interval. */
  const EmptyBox: AABB := AABB(Empty, Empty, Empty)

  /** Every slab of `inner` lies inside the matching slab of `outer`. */
  predicate BoxWithin(inner: AABB, outer: AABB) {
    Within(inner.x, outer.x) && Within(inner.y, outer.y) && Within(inner.z, outer.z)
  }

  /** `AABB.from_corners`: per axis, the range spanned by the two corners. */
  function FromCorners(a: Point, b: Point): (box: AABB)
    ensures Le(box.x.lower, box.x.upper) && Le(box.y.lower, box.y.upper) && Le(box.z.lower, box.z.upper)
    ensures Contains(box.x, Finite(a.x)) && Contains(box.x, Finite(b.x))
    ensures Contains(box.y, Finite(a.y)) && Contains(box.y, Finite(b.y))
    ensures Contains(box.z, Finite(a.z)) && Contains(box.z, Finite(b.z))
  {
    AABB(Span(a.x, b.x), Span(a.y, b.y), Span(a.z, b.z))
  }

  function Span(p: real, q: real): Interval {
    Interval(Min(Finite(p), Finite(q)), Max(Finite(p), Finite(q)))
  }

  /** The spanned box is the least box holding both corners. */
  lemma FromCornersLeast(a: Point, b: Point, c: AABB)
    requires Contains(c.x, Finite(a.x)) && Contains(c.x, Finite(b.x))
    requires Contains(c.y, Finite(a.y)) && Contains(c.y, Finite(b.y))
    requires Contains(c.z, Finite(a.z)) && Contains(c.z, Finite(b.z))
    ensures BoxWithin(FromCorners(a, b), c)
  {
  }

  /** The box does not depend on the order of the corners. */
  lemma FromCornersSymmetric(a: Point, b: Point)
    ensures FromCorners(a, b) == FromCorners(b, a)
  {
  }

  /** `AABB.merge`: the per-axis interval merge. */
  function Merge(b0: AABB, b1: AABB): (m: AABB)
    ensures BoxWithin(b0, m) && BoxWithin(b1, m)
  {
    AABB(Intervals.Merge(b0.x, b1.x), Intervals.Merge(b0.y, b1.y), Intervals.Merge(b0.z, b1.z))
  }

  /** The merged box is the least box holding both arguments, and merging is commutative. */
  lemma MergeLeastBox(b0: AABB, b1: AABB, c: AABB)
    ensures BoxWithin(b0, c) && BoxWithin(b1, c) ==> BoxWithin(Merge(b0, b1), c)
    ensures Merge(b0, b1) == Merge(b1, b0)
  {
    MergeAlgebra(b0.x, b1.x);
    MergeAlgebra(b0.y, b1.y);
    MergeAlgebra(b0.z, b1.z);
  }

  lemma BoxWithinTransitive(a: AABB, b: AABB, c: AABB)
    requires BoxWithin(a, b) && BoxWithin(b, c)
    ensures BoxWithin(a, c)
  {
    LeTotalOrder(c.x.lower, b.x.lower, a.x.lower);
    LeTotalOrder(a.x.upper, b.x.upper, c.x.upper);
    LeTotalOrder(c.y.lower, b.y.lower, a.y.lower);
    LeTotalOrder(a.y.upper, b.y.upper, c.y.upper);
    LeTotalOrder(c.z.lower, b.z.lower, a.z.lower);
    LeTotalOrder(a.z.upper, b.z.upper, c.z.upper);
  }

  /** `axis(n)`: 1 selects the y slab, 2 the z slab, anything else the x slab. */
  function Axis(b: AABB, n: int): (slab: Interval)
    ensures n == 1 ==> slab == b.y
    ensures n == 2 ==> slab == b.z
    ensures n != 1 && n != 2 ==> slab == b.x
  {
    if n == 1 then b.y
    else if n == 2 then b.z
    else b.x
  }

  /** Parameter at which the ray enters a slab along one axis: `(lower - o) / d`, or
      `(upper - o) / d` when `1 / d` is negative (the swap of `t0` and `t1`). */
  function SlabEntry(slab: Interval, o: real, d: real): ExtReal
    requires d != 0.0
  {
    var inv := 1.0 / d;
    if inv < 0.0 then Times(Plus(slab.upper, -o), inv) else Times(Plus(slab.lower, -o), inv)
  }

  /** Parameter at which the ray leaves a slab along one axis. */
  function SlabExit(slab: Interval, o: real, d: real): ExtReal
    requires d != 0.0
  {
    var inv := 1.0 / d;
    if inv < 0.0 then Times(Plus(slab.lower, -o), inv) else Times(Plus(slab.upper, -o), inv)
  }

  /** One axis of the slab test: raise the window's lower end to the entry and lower
      its upper end to the exit. */
  function Clip(w: Interval, slab: Interval, o: real, d: real): (c: Interval)
    requires d != 0.0
    ensures forall t: real {:trigger Contains(c, Finite(t))} ::
              Contains(c, Finite(t)) <==> Contains(w, Finite(t)) && Contains(slab, Finite(o + t * d))
    ensures c == Interval(Max(w.lower, SlabEntry(slab, o, d)), Min(w.upper, SlabExit(slab, o, d)))
  {
    var t0 := SlabEntry(slab, o, d);
    var t1 := SlabExit(slab, o, d);
    var lower := if Lt(w.lower, t0) then t0 else w.lower;
    var upper := if Lt(t1, w.upper) then t1 else w.upper;
    ClipMeaning(w, slab, o, d);
    Interval(lower, upper)
  }

  /** The clipped window holds exactly the parameters of the window at which the ray is
      inside the slab. */
  lemma ClipMeaning(w: Interval, slab: Interval, o: real, d: real)
    requires d != 0.0
    ensures forall t: real {:trigger Finite(t)} ::
              Contains(Interval(Max(w.lower, SlabEntry(slab, o, d)), Min(w.upper, SlabExit(slab, o, d))), Finite(t))
              <==> Contains(w, Finite(t)) && Contains(slab, Finite(o + t * d))
  {
    forall t: real
      ensures Contains(Interval(Max(w.lower, SlabEntry(slab, o, d)), Min(w.upper, SlabExit(slab, o, d))), Finite(t))
              <==> Contains(w, Finite(t)) && Contains(slab, Finite(o + t * d))
    {
      SlabMeaning(slab, o, d, t);
    }
  }

  /** The ray is inside the slab exactly between the entry and the exit. */
  lemma SlabMeaning(slab: Interval, o: real, d: real, t: real)
    requires d != 0.0
    ensures Le(SlabEntry(slab, o, d), Finite(t)) && Le(Finite(t), SlabExit(slab, o, d))
            <==> Contains(slab, Finite(o + t * d))
  {
    EntryMeaning(slab, o, d, t);
    ExitMeaning(slab, o, d, t);
  }

  /** The ray has entered the slab by `t`: it is past the lower face when it travels up
      the axis, past the upper face when it travels down. */
  lemma EntryMeaning(slab: Interval, o: real, d: real, t: real)
    requires d != 0.0
    ensures d > 0.0 ==> (Le(SlabEntry(slab, o, d), Finite(t)) <==> Le(slab.lower, Finite(o + t * d)))
    ensures d < 0.0 ==> (Le(SlabEntry(slab, o, d), Finite(t)) <==> Le(Finite(o + t * d), slab.upper))
  {
    if d > 0.0 {
      assert 1.0 / d > 0.0;
      if slab.lower.Finite? { ScaledBelow(slab.lower.r - o, d, t); }
    } else {
      assert 1.0 / d < 0.0;
      if slab.upper.Finite? { ScaledBelowNeg(slab.upper.r - o, d, t); }
    }
  }

  /** The ray has not yet left the slab at `t`. */
  lemma ExitMeaning(slab: Interval, o: real, d: real, t: real)
    requires d != 0.0
    ensures d > 0.0 ==> (Le(Finite(t), SlabExit(slab, o, d)) <==> Le(Finite(o + t * d), slab.upper))
    ensures d < 0.0 ==> (Le(Finite(t), SlabExit(slab, o, d)) <==> Le(slab.lower, Finite(o + t * d)))
  {
    if d > 0.0 {
      assert 1.0 / d > 0.0;
      if slab.upper.Finite? { ScaledAbove(slab.upper.r - o, d, t); }
    } else {
      assert 1.0 / d < 0.0;
      if slab.lower.Finite? { ScaledAboveNeg(slab.lower.r - o, d, t); }
    }
  }

  lemma ScaledBelow(x: real, d: real, t: real)
    requires d > 0.0
    ensures x * (1.0 / d) <= t <==> x <= t * d
  {
    var k := 1.0 / d;
    assert k * d == 1.0;
    if x * k <= t {
      MulLe(d, x * k, t);
      assert d * (x * k) == x;
    }
    if x <= t * d {
      MulLe(k, x, t * d);
      assert k * (t * d) == t;
    }
  }

  lemma ScaledAbove(x: real, d: real, t: real)
    requires d > 0.0
    ensures t <= x * (1.0 / d) <==> t * d <= x
  {
    var k := 1.0 / d;
    assert k * d == 1.0;
    if t <= x * k {
      MulLe(d, t, x * k);
      assert d * (x * k) == x;
    }
    if t * d <= x {
      MulLe(k, t * d, x);
      assert k * (t * d) == t;
    }
  }

  lemma ScaledBelowNeg(x: real, d: real, t: real)
    requires d < 0.0
    ensures x * (1.0 / d) <= t <==> t * d <= x
  {
    ScaledAbove(-x, -d, -t);
    assert (-x) * (1.0 / -d) == x * (1.0 / d);
  }

  lemma ScaledAboveNeg(x: real, d: real, t: real)
    requires d < 0.0
    ensures t <= x * (1.0 / d) <==> x <= t * d
  {
    ScaledBelow(-x, -d, -t);
    assert (-x) * (1.0 / -d) == x * (1.0 / d);
  }

  /** `upper_b <= lower_b`: the running window is empty. */
  predicate Collapsed(w: Interval) {
    Le(w.upper, w.lower)
  }

  /** `AABB.hit`: the slab test, x then y then z, giving up as soon as the window is empty. */
  function Hit(b: AABB, r: Ray, rayT: Interval): bool
    requires NonZeroDir(r)
  {
    var wx := Clip(rayT, b.x, r.orig.x, r.dir.x);
    if Collapsed(wx) then false
    else
      var wy := Clip(wx, b.y, r.orig.y, r.dir.y);
      if Collapsed(wy) then false
      else
        var wz := Clip(wy, b.z, r.orig.z, r.dir.z);
        !Collapsed(wz)
  }

  /** The latest entry over `rayT.lower` and the three axes. */
  function LatestEntry(b: AABB, r: Ray, rayT: Interval): ExtReal
    requires NonZeroDir(r)
  {
    Max(Max(Max(rayT.lower, SlabEntry(b.x, r.orig.x, r.dir.x)),
            SlabEntry(b.y, r.orig.y, r.dir.y)),
        SlabEntry(b.z, r.orig.z, r.dir.z))
  }

  /** The earliest exit over `rayT.upper` and the three axes. */
  function EarliestExit(b: AABB, r: Ray, rayT: Interval): ExtReal
    requires NonZeroDir(r)
  {
    Min(Min(Min(rayT.upper, SlabExit(b.x, r.orig.x, r.dir.x)),
            SlabExit(b.y, r.orig.y, r.dir.y)),
        SlabExit(b.z, r.orig.z, r.dir.z))
  }

  /** The early exits change nothing: the box is hit exactly when the latest entry
      comes strictly before the earliest exit. */
  lemma HitClosedForm(b: AABB, r: Ray, rayT: Interval)
    requires NonZeroDir(r)
    ensures Hit(b, r, rayT) <==> Lt(LatestEntry(b, r, rayT), EarliestExit(b, r, rayT))
  {
    var wx := Clip(rayT, b.x, r.orig.x, r.dir.x);
    var wy := Clip(wx, b.y, r.orig.y, r.dir.y);
    var wz := Clip(wy, b.z, r.orig.z, r.dir.z);
    assert wz.lower == LatestEntry(b, r, rayT) && wz.upper == EarliestExit(b, r, rayT);
    if Collapsed(wx) {
      LeTotalOrder(wz.upper, wy.upper, wx.upper);
      LeTotalOrder(wz.upper, wx.upper, wx.lower);
      LeTotalOrder(wz.upper, wx.lower, wy.lower);
      LeTotalOrder(wz.upper, wy.lower, wz.lower);
    } else if Collapsed(wy) {
      LeTotalOrder(wz.upper, wy.upper, wy.lower);
      LeTotalOrder(wz.upper, wy.lower, wz.lower);
    }
  }

  /** The point lies inside every slab of the box. */
  predicate InBox(b: AABB, p: Point) {
    Contains(b.x, Finite(p.x)) && Contains(b.y, Finite(p.y)) && Contains(b.z, Finite(p.z))
  }

  /** At `t` the ray is within the queried range and inside the box. */
  predicate InsideAt(b: AABB, r: Ray, rayT: Interval, t: real) {
    Contains(rayT, Finite(t)) && InBox(b, At(r, t))
  }

  /** What the slab test decides: the box is hit exactly when the ray is inside it, within
      the range, at two different parameters (so a ray that only grazes an edge or a corner,
      or touches the box only at an end of the range, is a miss). */
  lemma HitMeaning(b: AABB, r: Ray, rayT: Interval)
    requires NonZeroDir(r)
    ensures Hit(b, r, rayT) <==>
            exists t1: real, t2: real :: t1 < t2 && InsideAt(b, r, rayT, t1) && InsideAt(b, r, rayT, t2)
  {
    var w := Interval(LatestEntry(b, r, rayT), EarliestExit(b, r, rayT));
    HitClosedForm(b, r, rayT);
    OpenHasTwoPoints(w);
    forall t: real
      ensures Contains(w, Finite(t)) <==> InsideAt(b, r, rayT, t)
    {
      WindowAt(b, r, rayT, t);
    }
  }

  /** Between the latest entry and the earliest exit lie exactly the parameters at which
      the ray is in range and inside the box. */
  lemma WindowAt(b: AABB, r: Ray, rayT: Interval, t: real)
    requires NonZeroDir(r)
    ensures Contains(Interval(LatestEntry(b, r, rayT), EarliestExit(b, r, rayT)), Finite(t))
            <==> InsideAt(b, r, rayT, t)
  {
    WindowSlabs(b, r, rayT, t);
    AtComponents(r, t);
    var p := At(r, t);
    FacesAtPoint(b.x, r.orig.x, r.dir.x, t, p.x);
    FacesAtPoint(b.y, r.orig.y, r.dir.y, t, p.y);
    FacesAtPoint(b.z, r.orig.z, r.dir.z, t, p.z);
  }

  lemma FacesAtPoint(slab: Interval, o: real, d: real, t: real, x: real)
    requires d != 0.0 && x == o + t * d
    ensures BetweenFaces(slab, o, d, t) <==> Contains(slab, Finite(x))
  {
    SlabMeaning(slab, o, d, t);
  }

  /** `t` is between the slab's entry and exit. */
  predicate BetweenFaces(slab: Interval, o: real, d: real, t: real)
    requires d != 0.0
  {
    Le(SlabEntry(slab, o, d), Finite(t)) && Le(Finite(t), SlabExit(slab, o, d))
  }

  lemma WindowSlabs(b: AABB, r: Ray, rayT: Interval, t: real)
    requires NonZeroDir(r)
    ensures Contains(Interval(LatestEntry(b, r, rayT), EarliestExit(b, r, rayT)), Finite(t))
            <==> Contains(rayT, Finite(t)) &&
                 BetweenFaces(b.x, r.orig.x, r.dir.x, t) &&
                 BetweenFaces(b.y, r.orig.y, r.dir.y, t) &&
                 BetweenFaces(b.z, r.orig.z, r.dir.z, t)
  {
    var ex := SlabEntry(b.x, r.orig.x, r.dir.x);
    var ey := SlabEntry(b.y, r.orig.y, r.dir.y);
    var xx := SlabExit(b.x, r.orig.x, r.dir.x);
    var xy := SlabExit(b.y, r.orig.y, r.dir.y);
    MaxBelow(rayT.lower, ex, t);
    MaxBelow(Max(rayT.lower, ex), ey, t);
    MaxBelow(Max(Max(rayT.lower, ex), ey), SlabEntry(b.z, r.orig.z, r.dir.z), t);
    MinAbove(rayT.upper, xx, t);
    MinAbove(Min(rayT.upper, xx), xy, t);
    MinAbove(Min(Min(rayT.upper, xx), xy), SlabExit(b.z, r.orig.z, r.dir.z), t);
  }

  lemma MaxBelow(a: ExtReal, b: ExtReal, t: real)
    ensures Le(Max(a, b), Finite(t)) <==> Le(a, Finite(t)) && Le(b, Finite(t))
  {
    LeTotalOrder(a, Max(a, b), Finite(t));
    LeTotalOrder(b, Max(a, b), Finite(t));
  }

  lemma MinAbove(a: ExtReal, b: ExtReal, t: real)
    ensures Le(Finite(t), Min(a, b)) <==> Le(Finite(t), a) && Le(Finite(t), b)
  {
    LeTotalOrder(Finite(t), Min(a, b), a);
    LeTotalOrder(Finite(t), Min(a, b), b);
  }

  lemma AtComponents(r: Ray, t: real)
    ensures At(r, t).x == r.orig.x + t * r.dir.x
    ensures At(r, t).y == r.orig.y + t * r.dir.y
    ensures At(r, t).z == r.orig.z + t * r.dir.z
  {
    assert r.dir.x * t == t * r.dir.x && r.dir.y * t == t * r.dir.y && r.dir.z * t == t * r.dir.z;
  }


  /** A slab that lies inside another is entered no earlier and left no later. */
  lemma SlabWithin(inner: Interval, outer: Interval, o: real, d: real)
    requires d != 0.0 && Within(inner, outer)
    ensures Le(SlabEntry(outer, o, d), SlabEntry(inner, o, d))
    ensures Le(SlabExit(inner, o, d), SlabExit(outer, o, d))
  {
    var inv := 1.0 / d;
    PlusMonotone(outer.lower, inner.lower, -o);
    PlusMonotone(inner.upper, outer.upper, -o);
    TimesMonotone(Plus(outer.lower, -o), Plus(inner.lower, -o), inv);
    TimesMonotone(Plus(inner.upper, -o), Plus(outer.upper, -o), inv);
  }

  lemma MaxMonotone(a: ExtReal, b: ExtReal, c: ExtReal, d: ExtReal)
    requires Le(a, c) && Le(b, d)
    ensures Le(Max(a, b), Max(c, d))
  {
  }

  lemma MinMonotone(a: ExtReal, b: ExtReal, c: ExtReal, d: ExtReal)
    requires Le(a, c) && Le(b, d)
    ensures Le(Min(a, b), Min(c, d))
  {
  }

  /** The test is monotone: a box hit within `rayT` is hit within any wider range, and
      a box containing a hit box is hit too. */
  lemma HitMonotone(inner: AABB, outer: AABB, r: Ray, rayT: Interval, wider: Interval)
    requires NonZeroDir(r)
    requires BoxWithin(inner, outer) && Within(rayT, wider)
    requires Hit(inner, r, rayT)
    ensures Hit(outer, r, wider)
  {
    HitClosedForm(inner, r, rayT);
    HitClosedForm(outer, r, wider);
    SlabWithin(inner.x, outer.x, r.orig.x, r.dir.x);
    SlabWithin(inner.y, outer.y, r.orig.y, r.dir.y);
    SlabWithin(inner.z, outer.z, r.orig.z, r.dir.z);
    var ox := SlabEntry(outer.x, r.orig.x, r.dir.x);
    var oy := SlabEntry(outer.y, r.orig.y, r.dir.y);
    var oz := SlabEntry(outer.z, r.orig.z, r.dir.z);
    var ix := SlabEntry(inner.x, r.orig.x, r.dir.x);
    var iy := SlabEntry(inner.y, r.orig.y, r.dir.y);
    var iz := SlabEntry(inner.z, r.orig.z, r.dir.z);
    MaxMonotone(wider.lower, ox, rayT.lower, ix);
    MaxMonotone(Max(wider.lower, ox), oy, Max(rayT.lower, ix), iy);
    MaxMonotone(Max(Max(wider.lower, ox), oy), oz, Max(Max(rayT.lower, ix), iy), iz);
    var px := SlabExit(outer.x, r.orig.x, r.dir.x);
    var py := SlabExit(outer.y, r.orig.y, r.dir.y);
    var pz := SlabExit(outer.z, r.orig.z, r.dir.z);
    var jx := SlabExit(inner.x, r.orig.x, r.dir.x);
    var jy := SlabExit(inner.y, r.orig.y, r.dir.y);
    var jz := SlabExit(inner.z, r.orig.z, r.dir.z);
    MinMonotone(rayT.upper, jx, wider.upper, px);
    MinMonotone(Min(rayT.upper, jx), jy, Min(wider.upper, px), py);
    MinMonotone(Min(Min(rayT.upper, jx), jy), jz, Min(Min(wider.upper, px), py), pz);
    var ei := LatestEntry(inner, r, rayT);
    var eo := LatestEntry(outer, r, wider);
    var xi := EarliestExit(inner, r, rayT);
    var xo := EarliestExit(outer, r, wider);
    LeTotalOrder(eo, ei, xi);
    LeTotalOrder(ei, xi, xo);
    LeTotalOrder(eo, xi, xo);
  }

  /** A ray that hits either box hits their merge. */
  lemma HitMerge(b0: AABB, b1: AABB, r: Ray, rayT: Interval)
    requires NonZeroDir(r)
    requires Hit(b0, r, rayT) || Hit(b1, r, rayT)
    ensures Hit(Merge(b0, b1), r, rayT)
  {
    if Hit(b0, r, rayT) {
      HitMonotone(b0, Merge(b0, b1), r, rayT, rayT);
    } else {
      HitMonotone(b1, Merge(b0, b1), r, rayT, rayT);
    }
  }

  /** The box with empty slabs is never hit. */
  lemma EmptyBoxMissed(r: Ray, rayT: Interval)
    requires NonZeroDir(r)
    ensures !Hit(EmptyBox, r, rayT)
  {
    var inv := 1.0 / r.dir.x;
    assert SlabEntry(Empty, r.orig.x, r.dir.x) == PosInf;
    assert SlabExit(Empty, r.orig.x, r.dir.x) == NegInf;
  }
}

=== FILE: bvh.dfy ===
/** The bounding-volume hierarchy (bvh.py): construction by sorting on a random axis and
    splitting at the middle, and traversal that prunes by bounding box. Objects are of any
    type `T` with a bounding box `box` and a hit test `hit`; the random axis of the
    construction of the sub-range `[start, end)` is `axisOf(start, end)`. */
module Bvh {
  import opened Options
  import opened ExtReals
  import opened Intervals
  import opened Rays
  import opened Aabb
  import opened Hittable
  import opened HittableLists
  import opened Sorting

  /** A child is either an object or a `BVH_Node` with its box and depth. */
  datatype Tree<T> = Leaf(obj: T) | Node(left: Tree<T>, right: Tree<T>, bbox: AABB, depth: int)

  /** `bounding_box` of a child. */
  function BoxOf<T>(t: Tree<T>, box: T -> AABB): AABB {
    match t
    case Leaf(o) => box(o)
    case Node(_, _, b, _) => b
  }

  /** The objects at the leaves, left to right. */
  function Leaves<T>(t: Tree<T>): (s: seq<T>)
    ensures |s| > 0
  {
    match t
    case Leaf(o) => [o]
    case Node(l, r, _, _) => Leaves(l) + Leaves(r)
  }

  /** Every node's box is the merge of its children's boxes. */
  ghost predicate WellBoxed<T>(t: Tree<T>, box: T -> AABB) {
    match t
    case Leaf(_) => true
    case Node(l, r, b, _) => b == Aabb.Merge(BoxOf(l, box), BoxOf(r, box)) && WellBoxed(l, box) && WellBoxed(r, box)
  }

  /** Every node at the top of `t` has depth `d`, and its child nodes one more. */
  ghost predicate DepthsFrom<T>(t: Tree<T>, d: int) {
    match t
    case Leaf(_) => true
    case Node(l, r, _, depth) => depth == d && DepthsFrom(l, d + 1) && DepthsFrom(r, d + 1)
  }

  /** `BVH_Node.hit`: `None` when the box is missed; otherwise the left child on `rayT`,
      the right child on `rayT` cut at the left hit, and the right hit preferred. */
  function Traverse<T>(t: Tree<T>, hit: HitFn<T>, r: Ray, rayT: Interval): Option<HitRecord>
    requires NonZeroDir(r)
  {
    match t
    case Leaf(o) => hit(o, r, rayT)
    case Node(left, right, bbox, _) =>
      if !Aabb.Hit(bbox, r, rayT) then None
      else
        var recLeft := Traverse(left, hit, r, rayT);
        var upper := if recLeft.Some? then Finite(recLeft.value.t) else rayT.upper;
        var recRight := Traverse(right, hit, r, Interval(rayT.lower, upper));
        if recLeft.Some? && recRight.None? then recLeft
        else if recRight.Some? then recRight
        else None
  }

  /** `x_axis_key`, `y_axis_key`, `z_axis_key`: the lower end of one slab. */
  function XKey<T>(box: T -> AABB): T -> ExtReal {
    (o: T) => box(o).x.lower
  }

  function YKey<T>(box: T -> AABB): T -> ExtReal {
    (o: T) => box(o).y.lower
  }

  function ZKey<T>(box: T -> AABB): T -> ExtReal {
    (o: T) => box(o).z.lower
  }

  /** The sort key for an axis: axes 0 and 1 both choose the x key, any other the z key. */
  function AxisKey<T>(box: T -> AABB, axis: int): T -> ExtReal {
    if axis == 0 then XKey(box) else if axis == 1 then XKey(box) else ZKey(box)
  }

  /** `box_compare`: the lower ends of the chosen slab, compared with `<`; an axis outside
      0..2 matches no case and compares false. */
  function BoxCompare<T>(a: T, b: T, box: T -> AABB, axis: int): bool {
    if axis == 0 then Lt(box(a).x.lower, box(b).x.lower)
    else if axis == 1 then Lt(box(a).y.lower, box(b).y.lower)
    else if axis == 2 then Lt(box(a).z.lower, box(b).z.lower)
    else false
  }

  /** `construct_bvh_tree` on the sub-range `items` starting at `start`, for a node of
      depth `depth`. An empty range recurses without end, so it is excluded. */
  function Build<T(!new)>(items: seq<T>, box: T -> AABB, axisOf: (nat, nat) -> int, start: nat, depth: int): (t: Tree<T>)
    requires |items| > 0
    ensures t.Node? && t.depth == depth
    ensures forall o :: o in Leaves(t) <==> o in items
    ensures WellBoxed(t, box) && DepthsFrom(t, depth)
    decreases |items|
  {
    var axis := axisOf(start, start + |items|);
    var span := |items|;
    if span == 1 then
      Node(Leaf(items[0]), Leaf(items[0]), Aabb.Merge(box(items[0]), box(items[0])), depth)
    else if span == 2 then
      if BoxCompare(items[0], items[1], box, axis) then
        Node(Leaf(items[0]), Leaf(items[1]), Aabb.Merge(box(items[0]), box(items[1])), depth)
      else
        Node(Leaf(items[1]), Leaf(items[0]), Aabb.Merge(box(items[1]), box(items[0])), depth)
    else
      var halves := SortAndSplit(items, AxisKey(box, axis));
      PermutationMembers(halves.0 + halves.1, items);
      var left := Build(halves.0, box, axisOf, start, depth + 1);
      var right := Build(halves.1, box, axisOf, start + |halves.0|, depth + 1);
      Node(left, right, Aabb.Merge(BoxOf(left, box), BoxOf(right, box)), depth)
  }

  /** `objects[start:end] = sorted(objects[start:end], key=axis_key)` followed by the split at
      `span // 2`: both halves are non-empty, together they are a permutation of `items`,
      and no key on the left exceeds a key on the right. */
  function SortAndSplit<T>(items: seq<T>, key: T -> ExtReal): (halves: (seq<T>, seq<T>))
    requires |items| >= 2
    ensures |halves.0| == |items| / 2 && |halves.1| == |items| - |items| / 2
    ensures |halves.0| > 0 && |halves.1| > 0
    ensures multiset(halves.0 + halves.1) == multiset(items)
    ensures forall a, b :: a in halves.0 && b in halves.1 ==> Le(key(a), key(b))
  {
    var sorted := Sort(items, key);
    var mid := |items| / 2;
    HalvesOrdered(sorted, key, mid);
    assert sorted == sorted[..mid] + sorted[mid..];
    (sorted[..mid], sorted[mid..])
  }

  /** `BVH_Tree.__init__`: the root has depth 1 and is built from a copy of the whole list. */
  function BuildTree<T(!new)>(objs: seq<T>, box: T -> AABB, axisOf: (nat, nat) -> int): (t: Tree<T>)
    requires |objs| > 0
    ensures t.Node? && DepthsFrom(t, 1) && WellBoxed(t, box)
    ensures forall o :: o in Leaves(t) <==> o in objs
  {
    Build(objs, box, axisOf, 0, 1)
  }

  /** `BVH_Tree.hit`: the root's answer. */
  function TreeHit<T>(t: Tree<T>, hit: HitFn<T>, r: Ray, rayT: Interval): Option<HitRecord>
    requires NonZeroDir(r)
  {
    Traverse(t, hit, r, rayT)
  }

  /** A span of one makes both children the same object. */
  lemma BuildSpanOne<T(!new)>(items: seq<T>, box: T -> AABB, axisOf: (nat, nat) -> int, start: nat, depth: int)
    requires |items| == 1
    ensures Build(items, box, axisOf, start, depth).left == Leaf(items[0])
    ensures Build(items, box, axisOf, start, depth).right == Leaf(items[0])
  {
  }

  /** A span of two is ordered by `box_compare`: the first object goes left only when it
      compares strictly less on the chosen axis. */
  lemma BuildSpanTwo<T(!new)>(items: seq<T>, box: T -> AABB, axisOf: (nat, nat) -> int, start: nat, depth: int)
    requires |items| == 2
    ensures var t := Build(items, box, axisOf, start, depth);
            if BoxCompare(items[0], items[1], box, axisOf(start, start + 2))
            then t.left == Leaf(items[0]) && t.right == Leaf(items[1])
            else t.left == Leaf(items[1]) && t.right == Leaf(items[0])
  {
  }

  /** For a span of three or more, the range is sorted on the chosen axis key and split in
      the middle: both halves are non-empty, and no object on the left has a larger key
      than an object on the right. */
  lemma BuildSplitOrdered<T(!new)>(items: seq<T>, box: T -> AABB, axisOf: (nat, nat) -> int, start: nat, depth: int)
    requires |items| >= 3
    ensures var t := Build(items, box, axisOf, start, depth);
            var key := AxisKey(box, axisOf(start, start + |items|));
            t.left.Node? && t.right.Node? &&
            forall a, b :: a in Leaves(t.left) && b in Leaves(t.right) ==> Le(key(a), key(b))
  {
    var key := AxisKey(box, axisOf(start, start + |items|));
    var halves := SortAndSplit(items, key);
    BuildSplitChildren(items, box, axisOf, start, depth);
    var left := Build(halves.0, box, axisOf, start, depth + 1);
    var right := Build(halves.1, box, axisOf, start + |halves.0|, depth + 1);
    forall a, b | a in Leaves(left) && b in Leaves(right)
      ensures Le(key(a), key(b))
    {
      assert a in halves.0 && b in halves.1;
    }
  }

  /** For a span of three or more the children are built from the two halves. */
  lemma BuildSplitChildren<T(!new)>(items: seq<T>, box: T -> AABB, axisOf: (nat, nat) -> int, start: nat, depth: int)
    requires |items| >= 3
    ensures var halves := SortAndSplit(items, AxisKey(box, axisOf(start, start + |items|)));
            var t := Build(items, box, axisOf, start, depth);
            t.left == Build(halves.0, box, axisOf, start, depth + 1) &&
            t.right == Build(halves.1, box, axisOf, start + |halves.0|, depth + 1)
  {
  }

  /** In a sorted sequence nothing before a split point has a larger key than anything after. */
  lemma HalvesOrdered<T>(sorted: seq<T>, key: T -> ExtReal, mid: nat)
    requires SortedBy(sorted, key) && mid <= |sorted|
    ensures forall a, b :: a in sorted[..mid] && b in sorted[mid..] ==> Le(key(a), key(b))
  {
    forall a, b | a in sorted[..mid] && b in sorted[mid..]
      ensures Le(key(a), key(b))
    {
      var i :| 0 <= i < mid && sorted[..mid][i] == a;
      var j :| 0 <= j < |sorted| - mid && sorted[mid..][j] == b;
      assert sorted[i] == a && sorted[mid + j] == b;
    }
  }

  /** The sort key of axes 0 and 1 is the x key, so the y key is never used for sorting,
      while `box_compare` does compare y on axis 1. */
  lemma AxisKeyNeverY<T>(box: T -> AABB, axis: int, o: T)
    ensures axis == 0 || axis == 1 ==> AxisKey(box, axis)(o) == XKey(box)(o)
    ensures axis != 0 && axis != 1 ==> AxisKey(box, axis)(o) == ZKey(box)(o)
  {
  }

  /** For the three real axes `box_compare` compares the lower ends of `axis(n)`. */
  lemma BoxCompareByAxis<T>(a: T, b: T, box: T -> AABB, axis: int)
    requires 0 <= axis <= 2
    ensures BoxCompare(a, b, box, axis) == Lt(Aabb.Axis(box(a), axis).lower, Aabb.Axis(box(b), axis).lower)
  {
  }

  /** Every leaf's box lies inside the box of any node above it. */
  lemma {:induction false} LeafBoxesWithin<T>(t: Tree<T>, box: T -> AABB)
    requires WellBoxed(t, box)
    ensures forall o :: o in Leaves(t) ==> BoxWithin(box(o), BoxOf(t, box))
  {
    match t
    case Leaf(o) =>
      WithinReflexive(box(o));
    case Node(l, r, b, _) =>
      LeafBoxesWithin(l, box);
      LeafBoxesWithin(r, box);
      forall o | o in Leaves(t)
        ensures BoxWithin(box(o), b)
      {
        if o in Leaves(l) {
          BoxWithinTransitive(box(o), BoxOf(l, box), b);
        } else {
          BoxWithinTransitive(box(o), BoxOf(r, box), b);
        }
      }
  }

  lemma WithinReflexive(b: AABB)
    ensures BoxWithin(b, b)
  {
    LeTotalOrder(b.x.lower, b.x.upper, b.x.upper);
    LeTotalOrder(b.y.lower, b.y.upper, b.y.upper);
    LeTotalOrder(b.z.lower, b.z.upper, b.z.upper);
  }

  /** An object whose box is hit on every range where the object is hit. */
  ghost predicate BoxSound<T>(hit: HitFn<T>, box: T -> AABB, o: T, r: Ray) {
    NonZeroDir(r) && forall j :: hit(o, r, j).Some? ==> Aabb.Hit(box(o), r, j)
  }

  /** With sound boxes, pruning loses nothing: traversal returns exactly what a scan of
      the leaves, left to right, returns. */
  lemma {:induction false} TraverseIsScan<T>(t: Tree<T>, hit: HitFn<T>, box: T -> AABB, r: Ray, rayT: Interval)
    requires NonZeroDir(r) && WellBoxed(t, box)
    requires forall o :: o in Leaves(t) ==> BoxSound(hit, box, o, r)
    ensures Traverse(t, hit, r, rayT) == Scan(Leaves(t), hit, r, rayT)
  {
    match t
    case Leaf(o) =>
      assert Leaves(t)[..0] == [];
    case Node(l, rt, b, _) =>
      if !Aabb.Hit(b, r, rayT) {
        LeafBoxesWithin(t, box);
        forall o | o in Leaves(t)
          ensures hit(o, r, rayT).None?
        {
          if hit(o, r, rayT).Some? {
            LeTotalOrder(rayT.lower, rayT.upper, rayT.upper);
            HitMonotone(box(o), b, r, rayT, rayT);
          }
        }
        ScanAllMiss(Leaves(t), hit, r, rayT);
      } else {
        TraverseIsScan(l, hit, box, r, rayT);
        var left := Traverse(l, hit, r, rayT);
        var n := Narrow(rayT, left);
        TraverseIsScan(rt, hit, box, r, n);
        ScanAppend(Leaves(l), Leaves(rt), hit, r, rayT);
      }
  }

  /** When the leaves report hits inside their ranges, a right hit that wins over a left
      hit is strictly closer. */
  lemma RightHitCloser<T>(t: Tree<T>, hit: HitFn<T>, box: T -> AABB, r: Ray, rayT: Interval)
    requires NonZeroDir(r) && WellBoxed(t, box) && t.Node?
    requires forall o :: o in Leaves(t) ==> BoxSound(hit, box, o, r) && ReportsInRange(hit, o, r)
    requires Aabb.Hit(t.bbox, r, rayT)
    ensures var left := Traverse(t.left, hit, r, rayT);
            var right := Traverse(t.right, hit, r, Narrow(rayT, left));
            left.Some? && right.Some? ==> right.value.t < left.value.t
  {
    var left := Traverse(t.left, hit, r, rayT);
    var n := Narrow(rayT, left);
    TraverseIsScan(t.right, hit, box, r, n);
    ScanInRange(Leaves(t.right), hit, r, n);
  }

  /** The hierarchy agrees with the brute-force scan of the original list: when every
      object has a sound box and reports its nearest hit, both find a hit or both miss,
      at the same `t`, and the hierarchy's hit is a closest one. */
  lemma BvhAgreesWithList<T(!new)>(objs: seq<T>, box: T -> AABB, axisOf: (nat, nat) -> int,
                               hit: HitFn<T>, r: Ray, rayT: Interval)
    requires |objs| > 0 && NonZeroDir(r)
    requires forall o :: o in objs ==> BoxSound(hit, box, o, r) && ReportsNearest(hit, o, r, rayT)
    ensures var b := TreeHit(BuildTree(objs, box, axisOf), hit, r, rayT);
            var s := Scan(objs, hit, r, rayT);
            (b.None? <==> s.None?) && (b.Some? ==> b.value.t == s.value.t) && IsClosest(objs, hit, r, rayT, b)
  {
    var t := BuildTree(objs, box, axisOf);
    TraverseIsScan(t, hit, box, r, rayT);
    ScanClosest(Leaves(t), hit, r, rayT);
    ScanClosest(objs, hit, r, rayT);
    ClosestUnique(Leaves(t), objs, hit, r, rayT, Traverse(t, hit, r, rayT), Scan(objs, hit, r, rayT));
  }
}

=== FILE: camera.dfy ===
/** The recursive colour of a ray (`Camera._ray_color` in camera.py) and the image height
    formula. The scene, the scatter of the material hit and the normalization of a
    direction are supplied by the caller. */
module Cameras {
  import opened Options
  import opened ExtReals
  import opened Intervals
  import opened Vectors
  import opened Rays
  import opened Materials
  import opened Hittable
  import opened Scattering

  /** The range the scene is queried on: `Interval(0.001, inf)`. */
  const SceneRange: Interval := Interval(Finite(0.001), PosInf)

  const White: Color := Vec3(1.0, 1.0, 1.0)
  const SkyBlue: Color := Vec3(0.5, 0.7, 1.0)

  /** The background for a unit direction: `(1 - a) * white + a * (0.5, 0.7, 1.0)` with
      `a = 0.5 * (y + 1)`. */
  function Sky(unitDir: Vec3): (c: Color)
    ensures -1.0 <= unitDir.y <= 1.0 ==>
              0.5 <= c.x <= 1.0 && 0.7 <= c.y <= 1.0 && c.z == 1.0
  {
    var a := 0.5 * (unitDir.y + 1.0);
    Add(Mul(White, 1.0 - a), Mul(SkyBlue, a))
  }

  /** Straight down the sky is white, straight up it is the full blue. */
  lemma SkyEnds(unitDir: Vec3)
    ensures unitDir.y == -1.0 ==> Sky(unitDir) == White
    ensures unitDir.y == 1.0 ==> Sky(unitDir) == SkyBlue
  {
  }

  /** `_ray_color(r, depth, world)`: black once the bounce limit is spent, the attenuated
      colour of the scattered ray after a hit whose scatter succeeds, black after a hit that
      absorbs, and the sky on a miss. `scatter(r, rec, depth)` is the scatter of the
      material hit at this depth, with the draws it makes. */
  function RayColor(r: Ray, depth: int, world: (Ray, Interval) -> Option<HitRecord>,
                    scatter: (Ray, HitRecord, int) -> ScatterRecord, unit: Vec3 -> Vec3): (c: Color)
    ensures depth <= 0 ==> c == Zero
    decreases depth
  {
    if depth <= 0 then Zero
    else
      match world(r, SceneRange)
      case Some(rec) =>
        var s := scatter(r, rec, depth);
        if s.ok then Hadamard(s.attenuation, RayColor(s.scattered, depth - 1, world, scatter, unit))
        else Zero
      case None => Sky(unit(r.dir))
  }

  /** With attenuations in the unit cube and unit directions, every colour lies in the unit
      cube. */
  lemma {:induction false} ColorInUnitCube(r: Ray, depth: int, world: (Ray, Interval) -> Option<HitRecord>,
                                           scatter: (Ray, HitRecord, int) -> ScatterRecord, unit: Vec3 -> Vec3)
    requires forall q, rec, d :: InUnitCube(scatter(q, rec, d).attenuation)
    requires forall v :: -1.0 <= unit(v).y <= 1.0
    ensures InUnitCube(RayColor(r, depth, world, scatter, unit))
    decreases depth
  {
    if depth > 0 {
      match world(r, SceneRange)
      case Some(rec) =>
        var s := scatter(r, rec, depth);
        if s.ok {
          ColorInUnitCube(s.scattered, depth - 1, world, scatter, unit);
          HadamardInUnitCube(s.attenuation, RayColor(s.scattered, depth - 1, world, scatter, unit));
        }
      case None =>
    }
  }

  lemma HadamardInUnitCube(u: Color, v: Color)
    requires InUnitCube(u) && InUnitCube(v)
    ensures InUnitCube(Hadamard(u, v))
  {
    UnitProduct(u.x, v.x);
    UnitProduct(u.y, v.y);
    UnitProduct(u.z, v.z);
  }

  /** The recursion ends within `depth` bounces: the colour depends only on the scatters
      made at depths 1 to `depth`. */
  lemma {:induction false} DepthBounded(r: Ray, depth: int, world: (Ray, Interval) -> Option<HitRecord>,
                                        scatter1: (Ray, HitRecord, int) -> ScatterRecord,
                                        scatter2: (Ray, HitRecord, int) -> ScatterRecord, unit: Vec3 -> Vec3)
    requires forall q, rec, d :: 1 <= d <= depth ==> scatter1(q, rec, d) == scatter2(q, rec, d)
    ensures RayColor(r, depth, world, scatter1, unit) == RayColor(r, depth, world, scatter2, unit)
    decreases depth
  {
    if depth > 0 {
      match world(r, SceneRange)
      case Some(rec) =>
        var s := scatter1(r, rec, depth);
        DepthBounded(s.scattered, depth - 1, world, scatter1, scatter2, unit);
      case None =>
    }
  }

  /** A miss shows the sky, a hit that absorbs is black, and a hit that scatters is the
      attenuation times the colour of the scattered ray one bounce further. */
  lemma RayColorCases(r: Ray, depth: int, world: (Ray, Interval) -> Option<HitRecord>,
                      scatter: (Ray, HitRecord, int) -> ScatterRecord, unit: Vec3 -> Vec3)
    requires depth > 0
    ensures world(r, SceneRange).None? ==> RayColor(r, depth, world, scatter, unit) == Sky(unit(r.dir))
    ensures world(r, SceneRange).Some? && !scatter(r, world(r, SceneRange).value, depth).ok ==>
              RayColor(r, depth, world, scatter, unit) == Zero
    ensures world(r, SceneRange).Some? && scatter(r, world(r, SceneRange).value, depth).ok ==>
              RayColor(r, depth, world, scatter, unit) ==
              Hadamard(scatter(r, world(r, SceneRange).value, depth).attenuation,
                       RayColor(scatter(r, world(r, SceneRange).value, depth).scattered, depth - 1,
                                world, scatter, unit))
  {
  }

  /** Python's `int(x)` on a float: truncation toward zero. */
  function Truncate(x: real): (n: int)
    ensures x >= 0.0 ==> n as real <= x < n as real + 1.0
    ensures x < 0.0 ==> n as real - 1.0 < x <= n as real
  {
    if x >= 0.0 then x.Floor else -((-x).Floor)
  }

  /** `max(int(image_width / aspect_ratio), 1)`; an aspect ratio of 0 divides by zero. */
  function ImageHeight(imageWidth: int, aspectRatio: real): (h: int)
    requires aspectRatio != 0.0
    ensures h >= 1
    ensures imageWidth as real / aspectRatio >= 1.0 ==>
              h as real <= imageWidth as real / aspectRatio < h as real + 1.0
    ensures imageWidth as real / aspectRatio < 1.0 ==> h == 1
  {
    var q := Truncate(imageWidth as real / aspectRatio);
    if q > 1 then q else 1
  }
}

=== FILE: ext_real.dfy ===
/** Python floats as the renderer uses them: finite reals and the two infinities
    `math.inf` and `-math.inf`. NaN is not a value of this type; the one operation
    that can produce it (subtracting equal infinities) returns `None` instead. */
module ExtReals {
  import opened Options

  datatype ExtReal = NegInf | Finite(r: real) | PosInf

  /** `a <= b` on floats. */
  predicate Le(a: ExtReal, b: ExtReal) {
    match (a, b)
    case (NegInf, _) => true
    case (_, PosInf) => true
    case (Finite(x), Finite(y)) => x <= y
    case _ => false
  }

  /** `a < b` on floats. */
  predicate Lt(a: ExtReal, b: ExtReal) {
    !Le(b, a)
  }

  /** Python's `min(a, b)`: `a` unless `b` is strictly smaller. */
  function Min(a: ExtReal, b: ExtReal): (m: ExtReal)
    ensures Le(m, a) && Le(m, b)
    ensures m == a || m == b
  {
    if Lt(b, a) then b else a
  }

  /** Python's `max(a, b)`: `a` unless `b` is strictly larger. */
  function Max(a: ExtReal, b: ExtReal): (m: ExtReal)
    ensures Le(a, m) && Le(b, m)
    ensures m == a || m == b
  {
    if Lt(a, b) then b else a
  }

  /** `a + d` for a finite `d`: an infinity absorbs any finite summand. */
  function Plus(a: ExtReal, d: real): (s: ExtReal)
    ensures a.Finite? <==> s.Finite?
    ensures a.Finite? ==> s.r - d == a.r
  {
    match a
    case Finite(x) => Finite(x + d)
    case _ => a
  }

  /** `a * k` for a finite nonzero `k`: a negative factor swaps the infinities. */
  function Times(a: ExtReal, k: real): (p: ExtReal)
    requires k != 0.0
    ensures a.Finite? <==> p.Finite?
    ensures a.Finite? ==> p.r == a.r * k
    ensures k < 0.0 && a.PosInf? ==> p.NegInf?
    ensures k < 0.0 && a.NegInf? ==> p.PosInf?
  {
    match a
    case Finite(x) => Finite(x * k)
    case PosInf => if k > 0.0 then PosInf else NegInf
    case NegInf => if k > 0.0 then NegInf else PosInf
  }

  /** `a - b` on floats; `None` stands for the NaN of `inf - inf`. */
  function Minus(a: ExtReal, b: ExtReal): (d: Option<ExtReal>)
    ensures d.None? <==> (a.PosInf? && b.PosInf?) || (a.NegInf? && b.NegInf?)
    ensures a.Finite? && b.Finite? ==> d == Some(Finite(a.r - b.r))
  {
    match (a, b)
    case (Finite(x), Finite(y)) => Some(Finite(x - y))
    case (PosInf, PosInf) => None
    case (NegInf, NegInf) => None
    case (PosInf, _) => Some(PosInf)
    case (NegInf, _) => Some(NegInf)
    case (_, PosInf) => Some(NegInf)
    case (_, NegInf) => Some(PosInf)
  }

  /** `Le` is a total order. */
  lemma LeTotalOrder(a: ExtReal, b: ExtReal, c: ExtReal)
    ensures Le(a, a)
    ensures Le(a, b) || Le(b, a)
    ensures Le(a, b) && Le(b, a) ==> a == b
    ensures Le(a, b) && Le(b, c) ==> Le(a, c)
  {
  }

  /** Adding the same finite amount keeps the order. */
  lemma PlusMonotone(a: ExtReal, b: ExtReal, d: real)
    requires Le(a, b)
    ensures Le(Plus(a, d), Plus(b, d))
  {
  }

  /** Multiplying by a positive factor keeps the order, by a negative one reverses it. */
  lemma TimesMonotone(a: ExtReal, b: ExtReal, k: real)
    requires Le(a, b) && k != 0.0
    ensures k > 0.0 ==> Le(Times(a, k), Times(b, k))
    ensures k < 0.0 ==> Le(Times(b, k), Times(a, k))
  {
    if a.Finite? && b.Finite? {
      if k > 0.0 {
        assert a.r * k <= b.r * k;
      } else {
        assert b.r * k <= a.r * k;
      }
    }
  }
}

=== FILE: hittable.dfy ===
/** Hit records (`HitRecord` in hittable.py). The `Hittable.hit` interface is modelled as a
    function returning `Option<HitRecord>`: `None` for `False`, and the filled record for
    `True`. */
module Hittable {
  import opened Options
  import opened ExtReals
  import opened Vectors
  import opened Rays
  import opened Materials

  datatype HitRecord = HitRecord(p: Point, normal: Vec3, mat: Material, t: real, frontFace: bool)

  /** `set_face_normal`: the record faces the ray when the ray runs against the outward
      normal, and the stored normal is turned to face the ray. */
  function SetFaceNormal(rec: HitRecord, r: Ray, outward: Vec3): (res: HitRecord)
    ensures res.frontFace <==> Dot(r.dir, outward) < 0.0
    ensures res.normal == outward || res.normal == Neg(outward)
    ensures res.normal == (if res.frontFace then outward else Neg(outward))
    ensures Dot(r.dir, res.normal) <= 0.0
    ensures LengthSquared(outward) == 1.0 ==> LengthSquared(res.normal) == 1.0
    ensures res.p == rec.p && res.mat == rec.mat && res.t == rec.t
  {
    var front := Dot(r.dir, outward) < 0.0;
    DotNeg(r.dir, outward);
    DotNeg(outward, outward);
    DotSymmetric(Neg(outward), outward);
    DotNeg(Neg(outward), outward);
    assert Neg(Neg(outward)) == outward;
    rec.(frontFace := front, normal := if front then outward else Neg(outward))
  }

  /** Orienting again with the same outward normal changes nothing. */
  lemma SetFaceNormalIdempotent(rec: HitRecord, r: Ray, outward: Vec3)
    ensures SetFaceNormal(SetFaceNormal(rec, r, outward), r, outward) == SetFaceNormal(rec, r, outward)
  {
  }

  /** Only the sign of the ray direction matters: scaling it by a positive factor gives
      the same orientation. */
  lemma SetFaceNormalScaleInvariant(rec: HitRecord, r: Ray, outward: Vec3, k: real)
    requires k > 0.0
    ensures SetFaceNormal(rec, Ray(r.orig, Mul(r.dir, k)), outward) == SetFaceNormal(rec, r, outward)
  {
    var scaled := Ray(r.orig, Mul(r.dir, k));
    assert Dot(scaled.dir, outward) < 0.0 <==> Dot(r.dir, outward) < 0.0 by {
      DotScale(r.dir, k, outward);
      PositiveScaleSign(k, Dot(r.dir, outward));
    }
  }

  /** `copy`: every field taken from `other`. */
  function Copy(other: HitRecord): (res: HitRecord)
    ensures res == other
  {
    HitRecord(other.p, other.normal, other.mat, other.t, other.frontFace)
  }

  /** The hit `h` as seen through a range whose upper end is lowered to `c`: kept when it
      lies strictly before `c`, dropped otherwise. */
  function Cut(h: Option<HitRecord>, c: ExtReal): (k: Option<HitRecord>)
    ensures k.Some? ==> k == h && Lt(Finite(h.value.t), c)
    ensures h.Some? && Lt(Finite(h.value.t), c) ==> k == h
  {
    if h.Some? && Lt(Finite(h.value.t), c) then h else None
  }
}

=== FILE: hittable_list.dfy ===
/** `HittableList` (hittable_list.py): a scene as a list of objects, searched for the
    closest hit by a linear scan. Objects are of any type `T`; how one obj is hit is
    the function `hit` the caller supplies. */
module HittableLists {
  import opened Options
  import opened ExtReals
  import opened Intervals
  import opened Rays
  import opened Hittable

  datatype HittableList<T> = HittableList(objects: seq<T>)

  /** The hit test of one obj over a range: `None` for a miss. */
  type HitFn<!T> = (T, Ray, Interval) -> Option<HitRecord>

  /** The constructor: one object when one is given, none otherwise. */
  function New<T>(obj: Option<T>): (l: HittableList<T>)
    ensures obj.None? ==> l.objects == []
    ensures obj.Some? ==> l.objects == [obj.value]
  {
    if obj.Some? then Add(HittableList([]), obj.value) else HittableList([])
  }

  /** `clear`. */
  function Clear<T>(l: HittableList<T>): (c: HittableList<T>)
    ensures c.objects == []
  {
    HittableList([])
  }

  /** `add`: appends, keeping the earlier objects in place. */
  function Add<T>(l: HittableList<T>, obj: T): (a: HittableList<T>)
    ensures |a.objects| == |l.objects| + 1
    ensures a.objects[..|l.objects|] == l.objects && a.objects[|l.objects|] == obj
  {
    HittableList(l.objects + [obj])
  }

  /** The range an obj is queried on: `(lower, closest_so_far)`, where
      `closest_so_far` is the `t` of the best hit so far or the original upper end. */
  function Narrow(rayT: Interval, best: Option<HitRecord>): (n: Interval)
    ensures n.lower == rayT.lower
    ensures Within(n, rayT) || best.Some?
    ensures best.None? ==> n == rayT
    ensures best.Some? ==> n.upper == Finite(best.value.t)
  {
    if best.Some? then Interval(rayT.lower, Finite(best.value.t)) else rayT
  }

  /** A later hit replaces an earlier one. */
  function Combine(earlier: Option<HitRecord>, later: Option<HitRecord>): (c: Option<HitRecord>)
    ensures c.None? <==> earlier.None? && later.None?
  {
    if later.Some? then later else earlier
  }

  /** The result of the loop of `hit` over `objs`, as a left fold: each obj is queried on
      the range narrowed by the best hit before it, and a hit replaces the best so far. */
  function Scan<T>(objs: seq<T>, hit: HitFn<T>, r: Ray, rayT: Interval): Option<HitRecord>
    decreases |objs|
  {
    if |objs| == 0 then None
    else
      var prev := Scan(objs[..|objs| - 1], hit, r, rayT);
      Combine(prev, hit(objs[|objs| - 1], r, Narrow(rayT, prev)))
  }

  /** `HittableList.hit`: `rec` is the record passed in, returned unchanged on a miss. */
  method ListHit<T>(l: HittableList<T>, hit: HitFn<T>, r: Ray, rayT: Interval, rec: HitRecord)
    returns (hitAnything: bool, out: HitRecord)
    ensures hitAnything <==> Scan(l.objects, hit, r, rayT).Some?
    ensures hitAnything ==> out == Scan(l.objects, hit, r, rayT).value
    ensures !hitAnything ==> out == rec
  {
    hitAnything := false;
    var closestSoFar := rayT.upper;
    out := rec;
    var i := 0;
    while i < |l.objects|
      invariant 0 <= i <= |l.objects|
      invariant hitAnything <==> Scan(l.objects[..i], hit, r, rayT).Some?
      invariant hitAnything ==> out == Scan(l.objects[..i], hit, r, rayT).value && closestSoFar == Finite(out.t)
      invariant !hitAnything ==> out == rec && closestSoFar == rayT.upper
    {
      assert l.objects[..i + 1][..i] == l.objects[..i];
      var temp := hit(l.objects[i], r, Interval(rayT.lower, closestSoFar));
      if temp.Some? {
        hitAnything := true;
        closestSoFar := Finite(temp.value.t);
        out := Copy(temp.value);
      }
      i := i + 1;
    }
    assert l.objects[..|l.objects|] == l.objects;
  }

  /** The list built by the constructor and `clear` hit as expected, and appending an
      obj queries it on the range narrowed by the earlier best hit. */
  lemma ScanOfListOperations<T>(l: HittableList<T>, o: T, hit: HitFn<T>, r: Ray, rayT: Interval)
    ensures Scan(Clear(l).objects, hit, r, rayT) == None
    ensures Scan(New(Some(o)).objects, hit, r, rayT) == hit(o, r, rayT)
    ensures Scan(Add(l, o).objects, hit, r, rayT) ==
            Combine(Scan(l.objects, hit, r, rayT), hit(o, r, Narrow(rayT, Scan(l.objects, hit, r, rayT))))
  {
    assert New(Some(o)).objects[..0] == [];
    assert Add(l, o).objects[..|l.objects|] == l.objects;
  }

  /** Scanning a concatenation is scanning the second part on the range left by the first. */
  lemma {:induction false} ScanAppend<T>(a: seq<T>, b: seq<T>, hit: HitFn<T>, r: Ray, rayT: Interval)
    ensures Scan(a + b, hit, r, rayT) ==
            Combine(Scan(a, hit, r, rayT), Scan(b, hit, r, Narrow(rayT, Scan(a, hit, r, rayT))))
    decreases |b|
  {
    var sa := Scan(a, hit, r, rayT);
    var n := Narrow(rayT, sa);
    if |b| == 0 {
      assert a + b == a;
    } else {
      var b' := b[..|b| - 1];
      var last := b[|b| - 1];
      assert (a + b)[..|a + b| - 1] == a + b';
      assert (a + b)[|a + b| - 1] == last;
      ScanAppend(a, b', hit, r, rayT);
      var x := Scan(b', hit, r, n);
      assert Narrow(rayT, Combine(sa, x)) == Narrow(n, x);
    }
  }

  /** The scan misses exactly when every obj misses on the full range: the first obj that
      hits is asked on the range before any narrowing, and a hit is never dropped. */
  lemma {:induction false} ScanAllMiss<T>(objs: seq<T>, hit: HitFn<T>, r: Ray, rayT: Interval)
    ensures Scan(objs, hit, r, rayT).None? <==> forall o :: o in objs ==> hit(o, r, rayT).None?
    decreases |objs|
  {
    if |objs| > 0 {
      var init := objs[..|objs| - 1];
      var last := objs[|objs| - 1];
      assert objs == init + [last];
      assert forall o :: o in objs <==> o in init || o == last;
      ScanAllMiss(init, hit, r, rayT);
      var prev := Scan(init, hit, r, rayT);
      if prev.Some? {
        var o :| o in init && hit(o, r, rayT).Some?;
        assert o in objs;
      }
    }
  }

  /** An obj reports its nearest hit: lowering the upper end of the range to `c` keeps
      the hit exactly when it lies before `c`. */
  ghost predicate ReportsNearest<T>(hit: HitFn<T>, o: T, r: Ray, rayT: Interval) {
    forall c :: Le(c, rayT.upper) ==> hit(o, r, Interval(rayT.lower, c)) == Cut(hit(o, r, rayT), c)
  }

  /** `res` is a closest hit among `objs` over `rayT`: there is none exactly when every
      obj misses, and otherwise it is the hit of one of them, with the least `t`. */
  ghost predicate IsClosest<T>(objs: seq<T>, hit: HitFn<T>, r: Ray, rayT: Interval, res: Option<HitRecord>) {
    (res.None? <==> forall o :: o in objs ==> hit(o, r, rayT).None?) &&
    (res.Some? ==>
       (exists o :: o in objs && hit(o, r, rayT) == res) &&
       forall o :: o in objs && hit(o, r, rayT).Some? ==> res.value.t <= hit(o, r, rayT).value.t)
  }

  /** An obj reporting its nearest hit reports a hit strictly before the upper end. */
  lemma NearestBelowUpper<T>(hit: HitFn<T>, o: T, r: Ray, rayT: Interval)
    requires ReportsNearest(hit, o, r, rayT)
    ensures hit(o, r, rayT).Some? ==> Lt(Finite(hit(o, r, rayT).value.t), rayT.upper)
  {
    LeTotalOrder(rayT.upper, rayT.upper, rayT.upper);
    assert Interval(rayT.lower, rayT.upper) == rayT;
  }

  /** When every obj reports its nearest hit, the scan finds a closest hit, strictly
      before the upper end of the range. */
  lemma {:induction false} ScanClosest<T>(objs: seq<T>, hit: HitFn<T>, r: Ray, rayT: Interval)
    requires forall o :: o in objs ==> ReportsNearest(hit, o, r, rayT)
    ensures IsClosest(objs, hit, r, rayT, Scan(objs, hit, r, rayT))
    ensures Scan(objs, hit, r, rayT).Some? ==> Lt(Finite(Scan(objs, hit, r, rayT).value.t), rayT.upper)
    decreases |objs|
  {
    if |objs| > 0 {
      var init := objs[..|objs| - 1];
      var last := objs[|objs| - 1];
      assert forall o :: o in objs <==> o in init || o == last;
      ScanClosest(init, hit, r, rayT);
      var prev := Scan(init, hit, r, rayT);
      var h := hit(last, r, rayT);
      NearestBelowUpper(hit, last, r, rayT);
      if prev.Some? {
        var c := Finite(prev.value.t);
        LeTotalOrder(c, rayT.upper, rayT.upper);
        assert hit(last, r, Narrow(rayT, prev)) == Cut(h, c);
        if h.Some? && Lt(Finite(h.value.t), c) {
          LeTotalOrder(Finite(h.value.t), c, c);
        }
      } else {
        assert Narrow(rayT, prev) == rayT;
      }
    }
  }

  /** Two closest hits over the same objects agree on whether there is a hit and on its `t`. */
  lemma ClosestUnique<T>(objs1: seq<T>, objs2: seq<T>, hit: HitFn<T>, r: Ray, rayT: Interval,
                             res1: Option<HitRecord>, res2: Option<HitRecord>)
    requires forall o :: o in objs1 <==> o in objs2
    requires IsClosest(objs1, hit, r, rayT, res1) && IsClosest(objs2, hit, r, rayT, res2)
    ensures res1.None? <==> res2.None?
    ensures res1.Some? ==> res1.value.t == res2.value.t
  {
    if res1.Some? && res2.Some? {
      var o1 :| o1 in objs1 && hit(o1, r, rayT) == res1;
      var o2 :| o2 in objs2 && hit(o2, r, rayT) == res2;
    }
  }

  /** Every scan result is the hit of some obj on some range. */
  lemma {:induction false} ScanFromObject<T>(objs: seq<T>, hit: HitFn<T>, r: Ray, rayT: Interval)
    ensures Scan(objs, hit, r, rayT).Some? ==>
              exists o, j :: o in objs && hit(o, r, j) == Scan(objs, hit, r, rayT) && j.lower == rayT.lower
    decreases |objs|
  {
    if |objs| > 0 {
      var init := objs[..|objs| - 1];
      var last := objs[|objs| - 1];
      ScanFromObject(init, hit, r, rayT);
      var prev := Scan(init, hit, r, rayT);
      var n := Narrow(rayT, prev);
      if hit(last, r, n).None? && prev.Some? {
        var o, j :| o in init && hit(o, r, j) == prev && j.lower == rayT.lower;
        assert o in objs;
      } else if hit(last, r, n).Some? {
        assert last in objs && hit(last, r, n) == Scan(objs, hit, r, rayT);
      }
    }
  }

  /** An object reports only hits strictly inside the range it is asked about. */
  ghost predicate ReportsInRange<T>(hit: HitFn<T>, o: T, r: Ray) {
    forall j :: hit(o, r, j).Some? ==> Surrounds(j, Finite(hit(o, r, j).value.t))
  }

  /** `closest_so_far` never increases: one more object that reports hits inside its range
      keeps the list hit and can only lower its `t`. */
  lemma ScanNeverIncreases<T>(objs: seq<T>, o: T, hit: HitFn<T>, r: Ray, rayT: Interval)
    requires ReportsInRange(hit, o, r) && Scan(objs, hit, r, rayT).Some?
    ensures Scan(objs + [o], hit, r, rayT).Some?
    ensures Scan(objs + [o], hit, r, rayT).value.t <= Scan(objs, hit, r, rayT).value.t
  {
    assert (objs + [o])[..|objs|] == objs;
  }

  /** When every object reports hits inside its range, the scan's hit lies strictly inside
      the original range. */
  lemma {:induction false} ScanInRange<T>(objs: seq<T>, hit: HitFn<T>, r: Ray, rayT: Interval)
    requires forall o :: o in objs ==> ReportsInRange(hit, o, r)
    ensures Scan(objs, hit, r, rayT).Some? ==> Surrounds(rayT, Finite(Scan(objs, hit, r, rayT).value.t))
    decreases |objs|
  {
    if |objs| > 0 {
      var init := objs[..|objs| - 1];
      var last := objs[|objs| - 1];
      assert forall o :: o in init ==> o in objs;
      assert last in objs;
      ScanInRange(init, hit, r, rayT);
      var prev := Scan(init, hit, r, rayT);
      var n := Narrow(rayT, prev);
      var h := hit(last, r, n);
      if h.Some? && prev.Some? {
        LeTotalOrder(Finite(h.value.t), Finite(prev.value.t), rayT.upper);
      }
    }
  }
}

=== FILE: interval.dfy ===
/** Closed ranges of floats (`Interval` in interval.py). The empty interval is the
    sentinel `[+inf, -inf]` and the universal one is `[-inf, +inf]`. */
module Intervals {
  import opened Options
  import opened ExtReals

  datatype Interval = Interval(lower: ExtReal, upper: ExtReal)

  /** `Interval.EMPTY`. */
  const Empty: Interval := Interval(PosInf, NegInf)

  /** `Interval.UNIVERSE`. */
  const Universe: Interval := Interval(NegInf, PosInf)

  /** The constructor called without arguments. */
  function Default(): (i: Interval)
    ensures i == Empty
    ensures forall x :: !Contains(i, x)
  {
    Interval(PosInf, NegInf)
  }

  /** `lower <= x <= upper`. */
  predicate Contains(i: Interval, x: ExtReal) {
    Le(i.lower, x) && Le(x, i.upper)
  }

  /** `lower < x < upper`. */
  predicate Surrounds(i: Interval, x: ExtReal) {
    Lt(i.lower, x) && Lt(x, i.upper)
  }

  /** `inner` lies inside `outer` endpoint-wise. */
  predicate Within(inner: Interval, outer: Interval) {
    Le(outer.lower, inner.lower) && Le(inner.upper, outer.upper)
  }

  /** `Interval.merge`: the smallest interval holding both arguments. */
  function Merge(a: Interval, b: Interval): (m: Interval)
    ensures Within(a, m) && Within(b, m)
    ensures forall x :: Contains(a, x) || Contains(b, x) ==> Contains(m, x)
  {
    Interval(Min(a.lower, b.lower), Max(a.upper, b.upper))
  }

  /** `size`: `upper - lower`; `None` is the NaN of an interval with equal infinite ends. */
  function Size(i: Interval): (s: Option<ExtReal>)
    ensures i == Empty ==> s == Some(NegInf)
    ensures i == Universe ==> s == Some(PosInf)
    ensures i.lower.Finite? && i.upper.Finite? ==> s == Some(Finite(i.upper.r - i.lower.r))
  {
    Minus(i.upper, i.lower)
  }

  /** `expanded(delta)`: each end moves outward by `delta / 2`. */
  function Expanded(i: Interval, delta: real): (e: Interval)
    ensures delta >= 0.0 ==> Within(i, e)
    ensures i.lower.Finite? && i.upper.Finite? ==>
              Size(e) == Some(Finite(i.upper.r - i.lower.r + delta))
    ensures i.lower.Finite? <==> e.lower.Finite?
    ensures i.upper.Finite? <==> e.upper.Finite?
    ensures i.lower.Finite? && i.upper.Finite? ==> e.lower.r + e.upper.r == i.lower.r + i.upper.r
    ensures !i.lower.Finite? ==> e.lower == i.lower
    ensures !i.upper.Finite? ==> e.upper == i.upper
  {
    var padding := delta / 2.0;
    Interval(Plus(i.lower, -padding), Plus(i.upper, padding))
  }

  /** `clamp(x)`: the point of the interval nearest to `x`. */
  function Clamp(i: Interval, x: ExtReal): (c: ExtReal)
    ensures Le(i.lower, i.upper) ==> Contains(i, c)
    ensures Contains(i, x) ==> c == x
    ensures Lt(x, i.lower) ==> c == i.lower
    ensures !Lt(x, i.lower) && Lt(i.upper, x) ==> c == i.upper
  {
    if Lt(x, i.lower) then i.lower
    else if Lt(i.upper, x) then i.upper
    else x
  }

  /** Clamping twice is clamping once. */
  lemma ClampIdempotent(i: Interval, x: ExtReal)
    requires Le(i.lower, i.upper)
    ensures Clamp(i, Clamp(i, x)) == Clamp(i, x)
  {
  }

  /** Clamping preserves order: on an ordered interval, a larger value is never clamped
      to a smaller one. */
  lemma ClampMonotone(i: Interval, x: ExtReal, y: ExtReal)
    requires Le(i.lower, i.upper) && Le(x, y)
    ensures Le(Clamp(i, x), Clamp(i, y))
  {
    LeTotalOrder(x, y, i.lower);
    LeTotalOrder(i.upper, x, y);
  }

  /** The empty interval contains nothing and the universe contains everything. */
  lemma SentinelsContain(x: ExtReal)
    ensures !Contains(Empty, x)
    ensures Contains(Universe, x)
  {
  }

  /** Merge is commutative, and `Empty` is its unit. */
  lemma MergeAlgebra(a: Interval, b: Interval)
    ensures Merge(a, b) == Merge(b, a)
    ensures Merge(Empty, a) == a && Merge(a, Empty) == a
  {
    LeTotalOrder(a.lower, b.lower, a.lower);
    LeTotalOrder(a.upper, b.upper, a.upper);
  }

  /** Merge is the least interval holding both arguments. */
  lemma MergeLeast(a: Interval, b: Interval, c: Interval)
    requires Within(a, c) && Within(b, c)
    ensures Within(Merge(a, b), c)
  {
  }

  /** Surrounding a point implies containing it; the ends are contained but not surrounded. */
  lemma SurroundsContains(i: Interval, x: ExtReal)
    ensures Surrounds(i, x) ==> Contains(i, x)
    ensures Le(i.lower, i.upper) ==> Contains(i, i.lower) && Contains(i, i.upper)
    ensures !Surrounds(i, i.lower) && !Surrounds(i, i.upper)
  {
  }

  /** Containment of intervals carries containment of points. */
  lemma WithinContains(inner: Interval, outer: Interval, x: ExtReal)
    requires Within(inner, outer)
    ensures Contains(inner, x) ==> Contains(outer, x)
    ensures Surrounds(inner, x) ==> Surrounds(outer, x)
  {
  }

  /** An interval is open-ended in the strict sense (`lower < upper`) exactly when it
      contains two different reals. */
  lemma OpenHasTwoPoints(w: Interval)
    ensures Lt(w.lower, w.upper) <==>
            exists t1: real, t2: real :: t1 < t2 && Contains(w, Finite(t1)) && Contains(w, Finite(t2))
  {
    if Lt(w.lower, w.upper) {
      var t1: real, t2: real;
      match (w.lower, w.upper) {
        case (Finite(l), Finite(u)) => t1, t2 := l, u;
        case (Finite(l), _) => t1, t2 := l, l + 1.0;
        case (_, Finite(u)) => t1, t2 := u - 1.0, u;
        case _ => t1, t2 := 0.0, 1.0;
      }
      assert t1 < t2 && Contains(w, Finite(t1)) && Contains(w, Finite(t2));
    }
  }
}

=== FILE: material.dfy ===
/** Materials (material.py): the three kinds a hit record can carry. */
module Materials {
  import opened Vectors

  datatype Material =
    | Lambertian(albedo: Color)
    | Metal(albedo: Color, fuzz: real)
    | Dielectric(ir: real)

  /** `Metal.__init__`: the fuzz is capped at 1 and not clamped from below. */
  function MakeMetal(albedo: Color, fuzz: real): (m: Material)
    ensures m.Metal? && m.albedo == albedo
    ensures m.fuzz <= 1.0
    ensures fuzz <= 1.0 ==> m.fuzz == fuzz
    ensures fuzz > 1.0 ==> m.fuzz == 1.0
  {
    Metal(albedo, MinReal(fuzz, 1.0))
  }

  /** `math.pow(x, n)` for a natural exponent. */
  function Pow(x: real, n: nat): real {
    if n == 0 then 1.0 else x * Pow(x, n - 1)
  }

  /** The Schlick base reflectance `((1 - r) / (1 + r))^2`. */
  function BaseReflectance(refIdx: real): real
    requires 1.0 + refIdx != 0.0
  {
    var r0 := (1.0 - refIdx) / (1.0 + refIdx);
    r0 * r0
  }

  /** `Dielectric.reflectance`: Schlick's approximation
      `r0 + (1 - r0) * (1 - cosine)^5`. A ratio of -1 divides by zero. */
  function Reflectance(cosine: real, refIdx: real): real
    requires 1.0 + refIdx != 0.0
  {
    var r0 := BaseReflectance(refIdx);
    r0 + (1.0 - r0) * Pow(1.0 - cosine, 5)
  }

  /** At normal incidence (cosine 1) the reflectance is the base reflectance, and at
      grazing incidence (cosine 0) it is total. */
  lemma ReflectanceEnds(refIdx: real)
    requires 1.0 + refIdx != 0.0
    ensures Reflectance(1.0, refIdx) == BaseReflectance(refIdx)
    ensures Reflectance(0.0, refIdx) == 1.0
  {
  }

  /** For a positive ratio and a cosine in [0, 1] the reflectance is a probability, no
      smaller than the base reflectance. */
  lemma ReflectanceBounds(cosine: real, refIdx: real)
    requires refIdx > 0.0 && 0.0 <= cosine <= 1.0
    ensures BaseReflectance(refIdx) <= Reflectance(cosine, refIdx) <= 1.0
  {
    var r0 := BaseReflectance(refIdx);
    var p := Pow(1.0 - cosine, 5);
    BaseReflectanceBounds(refIdx);
    PowBounds(1.0 - cosine, 5);
    BlendBounds(r0, p);
    assert Reflectance(cosine, refIdx) == r0 + (1.0 - r0) * p;
  }

  lemma BaseReflectanceBounds(refIdx: real)
    requires refIdx > 0.0
    ensures 0.0 <= BaseReflectance(refIdx) <= 1.0
  {
    var q := (1.0 - refIdx) / (1.0 + refIdx);
    assert q * (1.0 + refIdx) == 1.0 - refIdx;
    assert -1.0 <= q <= 1.0;
    SquareAtMostOne(q);
  }

  lemma SquareAtMostOne(q: real)
    requires -1.0 <= q <= 1.0
    ensures 0.0 <= q * q <= 1.0
  {
    SquareNonNegative(q);
    var m := if q >= 0.0 then q else -q;
    assert q * q == m * m;
    calc {
      m * m;
    <= { MulLe(m, m, 1.0); }
      m * 1.0;
    <=
      1.0;
    }
  }

  lemma {:induction false} PowBounds(x: real, n: nat)
    requires 0.0 <= x <= 1.0
    ensures 0.0 <= Pow(x, n) <= 1.0
  {
    if n > 0 {
      PowBounds(x, n - 1);
      UnitProduct(x, Pow(x, n - 1));
    }
  }

  lemma UnitProduct(a: real, b: real)
    requires 0.0 <= a <= 1.0 && 0.0 <= b <= 1.0
    ensures 0.0 <= a * b <= 1.0
  {
    calc {
      0.0;
    == 
      a * 0.0;
    <= { MulLe(a, 0.0, b); }
      a * b;
    <= { MulLe(a, b, 1.0); }
      a * 1.0;
    <=
      1.0;
    }
  }

  lemma BlendBounds(r0: real, p: real)
    requires 0.0 <= r0 <= 1.0 && 0.0 <= p <= 1.0
    ensures r0 <= r0 + (1.0 - r0) * p
    ensures r0 + (1.0 - r0) * p <= 1.0
  {
    UnitProduct(1.0 - r0, p);
    BlendAtMostOne(r0, p);
  }

  lemma BlendAtMostOne(r0: real, p: real)
    requires 0.0 <= r0 <= 1.0 && 0.0 <= p <= 1.0
    ensures r0 + (1.0 - r0) * p <= 1.0
  {
    MulLe(1.0 - r0, p, 1.0);
  }
}

/** `scatter` of the three materials, with the random draws and the square roots it would
    compute supplied by the caller. */
module Scattering {
  import opened Vectors
  import opened Rays
  import opened Materials
  import opened Hittable

  /** The out-parameters of `scatter` together with its boolean result. */
  datatype ScatterRecord = ScatterRecord(ok: bool, attenuation: Color, scattered: Ray)

  /** What `scatter` draws or computes outside the model: the `rand_unit_vec()` draw, the
      `rand_float()` draw, the length of the incoming direction (for `normalize`), the
      `sin_theta` square root and the square root inside `refract`. */
  datatype Draws = Draws(unitVec: Vec3, uniform: real, dirLength: real, sinTheta: real, refractRoot: real)

  /** `min(dot(-unit_dir, normal), 1.0)`. */
  function CosTheta(unitDir: Vec3, normal: Vec3): real {
    MinReal(Dot(Neg(unitDir), normal), 1.0)
  }

  /** `1 / ir` on the front face, `ir` on the back face; `ir == 0` on the front face is
      the `ZeroDivisionError`. */
  function RefractionRatio(ir: real, frontFace: bool): (ratio: real)
    requires frontFace ==> ir != 0.0
    ensures frontFace ==> ratio * ir == 1.0
    ensures !frontFace ==> ratio == ir
  {
    if frontFace then 1.0 / ir else ir
  }

  /** The supplied values are the true square roots, and the divisions and square roots
      the source performs do not raise. */
  predicate Defined(m: Material, rayIn: Ray, rec: HitRecord, d: Draws) {
    match m
    case Lambertian(_) => true
    case Metal(_, _) =>
      IsSqrt(LengthSquared(rayIn.dir), d.dirLength) && d.dirLength != 0.0
    case Dielectric(ir) =>
      IsSqrt(LengthSquared(rayIn.dir), d.dirLength) && d.dirLength != 0.0 &&
      (rec.frontFace ==> ir != 0.0) &&
      var ratio := RefractionRatio(ir, rec.frontFace);
      var unitDir := Normalize(rayIn.dir, d.dirLength);
      var cosTheta := CosTheta(unitDir, rec.normal);
      IsSqrt(1.0 - cosTheta * cosTheta, d.sinTheta) &&
      (!CannotRefract(ratio, d.sinTheta) ==> 1.0 + ratio != 0.0) &&
      IsSqrt(Abs(1.0 - LengthSquared(RefractPerp(unitDir, rec.normal, ratio))), d.refractRoot)
  }

  /** `Lambertian.scatter`: the normal plus a random unit vector, or the bare normal when
      that sum is near zero. */
  function LambertianDirection(rec: HitRecord, unitVec: Vec3): (dir: Vec3)
    ensures dir == rec.normal || dir == Add(rec.normal, unitVec)
    ensures NearZero(Add(rec.normal, unitVec)) ==> dir == rec.normal
    ensures !NearZero(Add(rec.normal, unitVec)) ==> dir == Add(rec.normal, unitVec)
  {
    var s := Add(rec.normal, unitVec);
    if NearZero(s) then rec.normal else s
  }

  /** `ratio * sin_theta > 1`: Snell's law has no solution and the ray is reflected. */
  predicate CannotRefract(ratio: real, sinTheta: real) {
    ratio * sinTheta > 1.0
  }

  /** The direction `Dielectric.scatter` chooses: the mirror direction under total
      internal reflection or when the Schlick reflectance exceeds the uniform draw, the
      refracted direction otherwise. */
  function DielectricDirection(unitDir: Vec3, normal: Vec3, ratio: real, sinTheta: real,
                               uniform: real, root: real): Vec3
    requires !CannotRefract(ratio, sinTheta) ==> 1.0 + ratio != 0.0
    requires IsSqrt(Abs(1.0 - LengthSquared(RefractPerp(unitDir, normal, ratio))), root)
  {
    if CannotRefract(ratio, sinTheta) || Reflectance(CosTheta(unitDir, normal), ratio) > uniform then
      Reflect(unitDir, normal)
    else
      Refract(unitDir, normal, ratio, root)
  }

  /** The two branches of the choice: mirror under total internal reflection or a Schlick
      reflection, refract otherwise. */
  lemma DielectricDirectionCases(unitDir: Vec3, normal: Vec3, ratio: real, sinTheta: real,
                                 uniform: real, root: real)
    requires !CannotRefract(ratio, sinTheta) ==> 1.0 + ratio != 0.0
    requires IsSqrt(Abs(1.0 - LengthSquared(RefractPerp(unitDir, normal, ratio))), root)
    ensures CannotRefract(ratio, sinTheta) ==>
              DielectricDirection(unitDir, normal, ratio, sinTheta, uniform, root) == Reflect(unitDir, normal)
    ensures !CannotRefract(ratio, sinTheta) && Reflectance(CosTheta(unitDir, normal), ratio) > uniform ==>
              DielectricDirection(unitDir, normal, ratio, sinTheta, uniform, root) == Reflect(unitDir, normal)
    ensures !CannotRefract(ratio, sinTheta) && Reflectance(CosTheta(unitDir, normal), ratio) <= uniform ==>
              DielectricDirection(unitDir, normal, ratio, sinTheta, uniform, root) ==
              Refract(unitDir, normal, ratio, root)
  {
  }

  /** `Material.scatter`. */
  function Scatter(m: Material, rayIn: Ray, rec: HitRecord, d: Draws): (s: ScatterRecord)
    requires Defined(m, rayIn, rec, d)
    ensures s.scattered.orig == rec.p
    ensures m.Lambertian? || m.Metal? ==> s.attenuation == m.albedo
    ensures m.Dielectric? ==> s.attenuation == Vec3(1.0, 1.0, 1.0)
    ensures !m.Metal? ==> s.ok
    ensures m.Metal? ==> (s.ok <==> Dot(s.scattered.dir, rec.normal) > 0.0)
    ensures m.Lambertian? ==> s.scattered.dir == LambertianDirection(rec, d.unitVec)
    ensures m.Metal? ==>
              Sub(s.scattered.dir, Reflect(Normalize(rayIn.dir, d.dirLength), rec.normal)) == Mul(d.unitVec, m.fuzz)
    ensures m.Dielectric? ==>
              s.scattered.dir == DielectricDirection(Normalize(rayIn.dir, d.dirLength), rec.normal,
                                                     RefractionRatio(m.ir, rec.frontFace),
                                                     d.sinTheta, d.uniform, d.refractRoot)
  {
    match m
    case Lambertian(albedo) =>
      ScatterRecord(true, albedo, Ray(rec.p, LambertianDirection(rec, d.unitVec)))
    case Metal(albedo, fuzz) =>
      var reflected := Reflect(Normalize(rayIn.dir, d.dirLength), rec.normal);
      var dir := Add(reflected, Mul(d.unitVec, fuzz));
      ScatterRecord(Dot(dir, rec.normal) > 0.0, albedo, Ray(rec.p, dir))
    case Dielectric(ir) =>
      var ratio := RefractionRatio(ir, rec.frontFace);
      var unitDir := Normalize(rayIn.dir, d.dirLength);
      var dir := DielectricDirection(unitDir, rec.normal, ratio, d.sinTheta, d.uniform, d.refractRoot);
      ScatterRecord(true, Vec3(1.0, 1.0, 1.0), Ray(rec.p, dir))
  }

  /** Every component lies in [0, 1]. */
  predicate InUnitCube(c: Color) {
    0.0 <= c.x <= 1.0 && 0.0 <= c.y <= 1.0 && 0.0 <= c.z <= 1.0
  }

  /** A material whose albedo (if any) lies in the unit cube attenuates into the unit cube. */
  predicate Physical(m: Material) {
    m.Dielectric? || InUnitCube(m.albedo)
  }

  lemma AttenuationInUnitCube(m: Material, rayIn: Ray, rec: HitRecord, d: Draws)
    requires Defined(m, rayIn, rec, d) && Physical(m)
    ensures InUnitCube(Scatter(m, rayIn, rec, d).attenuation)
  {
  }

  /** The near-zero guard works: with a unit normal the Lambertian direction is never
      degenerate. */
  lemma LambertianNotDegenerate(rec: HitRecord, unitVec: Vec3)
    requires LengthSquared(rec.normal) == 1.0
    ensures !NearZero(LambertianDirection(rec, unitVec))
  {
    NearZeroIsShort(rec.normal);
  }

  /** A perfect mirror (fuzz 0) with a unit normal scatters exactly when the ray arrives
      against the normal, and then sends it out along the mirror direction. */
  lemma PerfectMirror(albedo: Color, rayIn: Ray, rec: HitRecord, d: Draws)
    requires Defined(Metal(albedo, 0.0), rayIn, rec, d)
    requires Dot(rec.normal, rec.normal) == 1.0
    ensures Scatter(Metal(albedo, 0.0), rayIn, rec, d).ok <==> Dot(rayIn.dir, rec.normal) < 0.0
    ensures Scatter(Metal(albedo, 0.0), rayIn, rec, d).scattered.dir ==
            Reflect(Normalize(rayIn.dir, d.dirLength), rec.normal)
  {
    var u := Normalize(rayIn.dir, d.dirLength);
    var reflected := Reflect(u, rec.normal);
    assert Add(reflected, Mul(d.unitVec, 0.0)) == reflected;
    ReflectNormalComponent(u, rec.normal);
    assert d.dirLength > 0.0;
    NormalizeKeepsSign(rayIn.dir, d.dirLength, rec.normal);
  }

  /** Total internal reflection: when `ratio * sin_theta > 1` the dielectric mirrors the ray. */
  lemma TotalInternalReflection(ir: real, rayIn: Ray, rec: HitRecord, d: Draws)
    requires Defined(Dielectric(ir), rayIn, rec, d)
    requires CannotRefract(RefractionRatio(ir, rec.frontFace), d.sinTheta)
    ensures Scatter(Dielectric(ir), rayIn, rec, d).scattered.dir ==
            Reflect(Normalize(rayIn.dir, d.dirLength), rec.normal)
  {
    DielectricDirectionCases(Normalize(rayIn.dir, d.dirLength), rec.normal,
                             RefractionRatio(ir, rec.frontFace), d.sinTheta, d.uniform, d.refractRoot);
  }

  /** Entering a denser medium (front face, `ir >= 1`) never triggers total internal
      reflection. */
  lemma EnteringDenserRefracts(ir: real, rayIn: Ray, rec: HitRecord, d: Draws)
    requires Defined(Dielectric(ir), rayIn, rec, d)
    requires rec.frontFace && ir >= 1.0
    ensures !CannotRefract(RefractionRatio(ir, rec.frontFace), d.sinTheta)
  {
    var c := CosTheta(Normalize(rayIn.dir, d.dirLength), rec.normal);
    assert IsSqrt(1.0 - c * c, d.sinTheta);
    ReciprocalAtMostOne(ir);
    assert RefractionRatio(ir, rec.frontFace) == 1.0 / ir;
    RatioSineAtMostOne(1.0 / ir, d.sinTheta, c);
  }

  lemma ReciprocalAtMostOne(ir: real)
    requires ir >= 1.0
    ensures 0.0 < 1.0 / ir <= 1.0
  {
    var k := 1.0 / ir;
    assert k * ir == 1.0;
    if k > 1.0 {
      MulLt(ir, 1.0, k);
    }
  }

  lemma RatioSineAtMostOne(ratio: real, s: real, c: real)
    requires 0.0 < ratio <= 1.0 && IsSqrt(1.0 - c * c, s)
    ensures !CannotRefract(ratio, s)
  {
    SquareNonNegative(c);
    SineAtMostOne(s);
    MulLe(ratio, s, 1.0);
  }

  lemma SineAtMostOne(s: real)
    requires s >= 0.0 && s * s <= 1.0
    ensures s <= 1.0
  {
    if s > 1.0 {
      MulLt(s, 1.0, s);
    }
  }
}

=== FILE: options.dfy ===
/** Optional values: the model's stand-in for Python's `None`-or-value results. */
module Options {

  datatype Option<+T> = None | Some(value: T) {

    /** The carried value, or `default` when there is none. */
    function GetOr(default: T): T {
      match this
      case Some(v) => v
      case None => default
    }
  }
}

=== FILE: ray.dfy ===
/** Rays `origin + t * direction` (`Ray` in ray.py). */
module Rays {
  import opened Vectors

  datatype Ray = Ray(orig: Point, dir: Vec3)

  /** `at(t)`: the point reached after parameter `t`. */
  function At(r: Ray, t: real): (p: Point)
    ensures Sub(p, r.orig) == Mul(r.dir, t)
  {
    Add(r.orig, Mul(r.dir, t))
  }

  /** The parametrisation starts at the origin, reaches `origin + dir` at 1, and is affine. */
  lemma AtAffine(r: Ray, t: real, s: real)
    ensures At(r, 0.0) == r.orig
    ensures At(r, 1.0) == Add(r.orig, r.dir)
    ensures At(r, t + s) == Add(At(r, t), Mul(r.dir, s))
  {
  }

  /** No direction component is zero (each `1 / dir` in the slab test is defined). */
  predicate NonZeroDir(r: Ray) {
    r.dir.x != 0.0 && r.dir.y != 0.0 && r.dir.z != 0.0
  }
}

=== FILE: scene.dfy ===
/** A scene of spheres searched as a `HittableList`: each sphere reports its nearest hit
    inside the range, so the list scan finds the closest sphere. */
module Scenes {
  import opened Options
  import opened ExtReals
  import opened Intervals
  import opened Vectors
  import opened Rays
  import opened Hittable
  import opened HittableLists
  import opened Spheres

  /** The sphere's hit test is defined: a nonzero direction, a nonzero radius and the true
      square root of a non-negative discriminant. */
  predicate SphereDefined(s: Sphere, r: Ray, sqrtd: real) {
    r.dir != Zero && s.radius != 0.0 && (Discriminant(s, r) >= 0.0 ==> IsSqrt(Discriminant(s, r), sqrtd))
  }

  /** The hit test of a sphere object, with `math.sqrt(disc)` supplied by `sqrt`. */
  function SphereHitFn(sqrt: (Sphere, Ray) -> real): HitFn<Sphere> {
    (s: Sphere, r: Ray, j: Interval) =>
      if SphereDefined(s, r, sqrt(s, r)) then SphereHit(s, r, j, sqrt(s, r)) else None
  }

  /** A sphere reports its nearest hit, strictly inside the range it is asked about. */
  lemma SphereIsNearest(sqrt: (Sphere, Ray) -> real, s: Sphere, r: Ray, rayT: Interval)
    requires SphereDefined(s, r, sqrt(s, r))
    ensures ReportsNearest(SphereHitFn(sqrt), s, r, rayT)
    ensures ReportsInRange(SphereHitFn(sqrt), s, r)
  {
    forall c | Le(c, rayT.upper)
      ensures SphereHitFn(sqrt)(s, r, Interval(rayT.lower, c)) == Cut(SphereHitFn(sqrt)(s, r, rayT), c)
    {
      SphereHitCut(s, r, rayT, sqrt(s, r), c);
    }
  }

  /** Scanning a list of spheres finds a closest sphere hit. */
  lemma SpheresScanClosest(spheres: seq<Sphere>, sqrt: (Sphere, Ray) -> real, r: Ray, rayT: Interval)
    requires forall s :: s in spheres ==> SphereDefined(s, r, sqrt(s, r))
    ensures IsClosest(spheres, SphereHitFn(sqrt), r, rayT, Scan(spheres, SphereHitFn(sqrt), r, rayT))
    ensures Scan(spheres, SphereHitFn(sqrt), r, rayT).Some? ==>
              Surrounds(rayT, Finite(Scan(spheres, SphereHitFn(sqrt), r, rayT).value.t))
  {
    forall s | s in spheres
      ensures ReportsNearest(SphereHitFn(sqrt), s, r, rayT) && ReportsInRange(SphereHitFn(sqrt), s, r)
    {
      SphereIsNearest(sqrt, s, r, rayT);
    }
    ScanClosest(spheres, SphereHitFn(sqrt), r, rayT);
    ScanInRange(spheres, SphereHitFn(sqrt), r, rayT);
  }
}

=== FILE: sorting.dfy ===
/** The stable sort `sorted(..., key=...)` used by the hierarchy build, as an insertion
    sort on sequences ordered by an extended-real key. */
module Sorting {
  import opened ExtReals

  /** The keys never decrease along `s`. */
  ghost predicate SortedBy<T>(s: seq<T>, key: T -> ExtReal) {
    forall i, j :: 0 <= i < j < |s| ==> Le(key(s[i]), key(s[j]))
  }

  /** Inserts `x` after every element whose key does not exceed its own, so that equal
      keys keep their order. */
  function Insert<T>(x: T, s: seq<T>, key: T -> ExtReal): (r: seq<T>)
    ensures multiset(r) == multiset(s) + multiset{x}
    ensures |r| == |s| + 1
    ensures forall y :: y in r ==> y in s || y == x
    ensures SortedBy(s, key) ==> SortedBy(r, key)
  {
    if |s| == 0 then [x]
    else if Le(key(s[0]), key(x)) then
      var rest := Insert(x, s[1..], key);
      assert s == [s[0]] + s[1..];
      InsertKeepsLowerBound(s, x, rest, key);
      [s[0]] + rest
    else
      LeTotalOrder(key(s[0]), key(x), key(x));
      LowerBoundBelowSorted(x, s, key);
      [x] + s
  }

  lemma InsertKeepsLowerBound<T>(s: seq<T>, x: T, rest: seq<T>, key: T -> ExtReal)
    requires |s| > 0 && Le(key(s[0]), key(x))
    requires forall y :: y in rest ==> y in s[1..] || y == x
    requires SortedBy(s, key) ==> SortedBy(rest, key)
    ensures SortedBy(s, key) ==> SortedBy([s[0]] + rest, key)
  {
    if SortedBy(s, key) {
      var r := [s[0]] + rest;
      forall i, j | 0 <= i < j < |r|
        ensures Le(key(r[i]), key(r[j]))
      {
        if i == 0 {
          assert r[j] in rest;
          if r[j] != x {
            var k :| 1 <= k < |s| && s[k] == r[j];
          }
        } else {
          assert r[i] == rest[i - 1] && r[j] == rest[j - 1];
        }
      }
    }
  }

  lemma LowerBoundBelowSorted<T>(x: T, s: seq<T>, key: T -> ExtReal)
    requires |s| > 0 && Le(key(x), key(s[0]))
    ensures SortedBy(s, key) ==> SortedBy([x] + s, key)
  {
    if SortedBy(s, key) {
      var r := [x] + s;
      forall i, j | 0 <= i < j < |r|
        ensures Le(key(r[i]), key(r[j]))
      {
        if i == 0 {
          LeTotalOrder(key(x), key(s[0]), key(r[j]));
        } else {
          assert r[i] == s[i - 1] && r[j] == s[j - 1];
        }
      }
    }
  }

  /** `sorted(s, key=key)`: inserts the elements one by one, first to last. */
  function Sort<T>(s: seq<T>, key: T -> ExtReal): (r: seq<T>)
    ensures SortedBy(r, key)
    ensures multiset(r) == multiset(s)
    ensures |r| == |s|
  {
    if |s| == 0 then []
    else
      assert s == s[..|s| - 1] + [s[|s| - 1]];
      Insert(s[|s| - 1], Sort(s[..|s| - 1], key), key)
  }

  /** A permutation keeps the elements: membership is unchanged. */
  lemma PermutationMembers<T>(a: seq<T>, b: seq<T>)
    requires multiset(a) == multiset(b)
    ensures forall y :: y in a <==> y in b
  {
    forall y
      ensures y in a <==> y in b
    {
      assert y in a <==> y in multiset(a);
      assert y in b <==> y in multiset(b);
    }
  }
}

=== FILE: sphere.dfy ===
/** Ray-sphere intersection (`Sphere.hit` in sphere.py), by the half-b quadratic formula. */
module Spheres {
  import opened Options
  import opened ExtReals
  import opened Intervals
  import opened Vectors
  import opened Rays
  import opened Materials
  import opened Hittable

  datatype Sphere = Sphere(center: Point, radius: real, mat: Material)

  /** `t` is a root of the sphere along the ray: the point at `t` is at distance
      `radius` from the center. */
  predicate IsRoot(s: Sphere, r: Ray, t: real) {
    LengthSquared(Sub(At(r, t), s.center)) == s.radius * s.radius
  }

  /** The coefficients `a`, `half_b`, `c` of the quadratic and its discriminant. */
  function A(r: Ray): real {
    LengthSquared(r.dir)
  }

  function HalfB(s: Sphere, r: Ray): real {
    Dot(Sub(r.orig, s.center), r.dir)
  }

  function C(s: Sphere, r: Ray): real {
    LengthSquared(Sub(r.orig, s.center)) - s.radius * s.radius
  }

  function Discriminant(s: Sphere, r: Ray): real {
    HalfB(s, r) * HalfB(s, r) - A(r) * C(s, r)
  }

  /** The nearer root `(-half_b - sqrtd) / a` and the farther root `(-half_b + sqrtd) / a`. */
  function NearRoot(s: Sphere, r: Ray, sqrtd: real): real
    requires r.dir != Zero
  {
    LengthSquaredPositive(r.dir);
    (-HalfB(s, r) - sqrtd) / A(r)
  }

  function FarRoot(s: Sphere, r: Ray, sqrtd: real): real
    requires r.dir != Zero
  {
    LengthSquaredPositive(r.dir);
    (-HalfB(s, r) + sqrtd) / A(r)
  }

  /** The record filled for the root `t`: the point, the normal oriented by
      `set_face_normal` from `(p - center) / radius`, and the sphere's material. */
  function Record(s: Sphere, r: Ray, t: real): (rec: HitRecord)
    requires s.radius != 0.0
    ensures rec.t == t && rec.p == At(r, t) && rec.mat == s.mat
    ensures Dot(r.dir, rec.normal) <= 0.0
    ensures rec.normal == Outward(s, rec.p) || rec.normal == Neg(Outward(s, rec.p))
    ensures rec.frontFace <==> Dot(r.dir, Outward(s, rec.p)) < 0.0
    ensures rec.normal == (if rec.frontFace then Outward(s, rec.p) else Neg(Outward(s, rec.p)))
  {
    var p := At(r, t);
    SetFaceNormal(HitRecord(p, Zero, s.mat, t, false), r, Outward(s, p))
  }

  /** `(p - center) / radius`. */
  function Outward(s: Sphere, p: Point): Vec3
    requires s.radius != 0.0
  {
    Mul(Sub(p, s.center), 1.0 / s.radius)
  }

  /** `Sphere.hit`, with `math.sqrt(disc)` supplied as `sqrtd`. A zero direction is the
      `ZeroDivisionError` of the division by `a`, and a zero radius the `ValueError` of the
      division by the radius. */
  function SphereHit(s: Sphere, r: Ray, rayT: Interval, sqrtd: real): (h: Option<HitRecord>)
    requires r.dir != Zero && s.radius != 0.0
    requires Discriminant(s, r) >= 0.0 ==> IsSqrt(Discriminant(s, r), sqrtd)
    ensures h.Some? ==> Surrounds(rayT, Finite(h.value.t)) && IsRoot(s, r, h.value.t)
    ensures h.Some? ==> h.value.p == At(r, h.value.t) && h.value.mat == s.mat
    ensures h.Some? ==> Dot(r.dir, h.value.normal) <= 0.0 && LengthSquared(h.value.normal) == 1.0
    ensures h.Some? ==> h.value == Record(s, r, h.value.t)
  {
    if Discriminant(s, r) < 0.0 then None
    else
      RootsAreRoots(s, r, sqrtd);
      var near := NearRoot(s, r, sqrtd);
      if Surrounds(rayT, Finite(near)) then
        OnSphereUnitNormal(s, r, near);
        Some(Record(s, r, near))
      else
        var far := FarRoot(s, r, sqrtd);
        if Surrounds(rayT, Finite(far)) then
          OnSphereUnitNormal(s, r, far);
          Some(Record(s, r, far))
        else None
  }

  /** The outward normal of a point on the sphere has unit length. */
  lemma OnSphereUnitNormal(s: Sphere, r: Ray, t: real)
    requires s.radius != 0.0 && IsRoot(s, r, t)
    ensures LengthSquared(Record(s, r, t).normal) == 1.0
  {
    var p := At(r, t);
    var v := Sub(p, s.center);
    var k := 1.0 / s.radius;
    LengthSquaredScale(v, k);
    calc {
      LengthSquared(Outward(s, p));
    ==
      k * k * LengthSquared(v);
    ==
      k * k * (s.radius * s.radius);
    == { ReciprocalSquare(s.radius); }
      1.0;
    }
    var n := Outward(s, p);
    DotNeg(n, n);
    DotSymmetric(Neg(n), n);
    DotNeg(Neg(n), n);
    assert Neg(Neg(n)) == n;
  }

  /** `a t^2 + 2 half_b t + c`. */
  function Quadratic(a: real, hb: real, c: real, t: real): real {
    a * (t * t) + 2.0 * hb * t + c
  }

  /** The sphere equation along the ray is the quadratic in `t`. */
  lemma IsRootQuadratic(s: Sphere, r: Ray, t: real)
    ensures IsRoot(s, r, t) <==> Quadratic(A(r), HalfB(s, r), C(s, r), t) == 0.0
  {
    var oc := Sub(r.orig, s.center);
    assert Sub(At(r, t), s.center) == Add(oc, Mul(r.dir, t));
    LengthExpand(oc, r.dir, t);
    DotSymmetric(oc, r.dir);
  }

  lemma LengthExpand(o: Vec3, d: Vec3, t: real)
    ensures LengthSquared(Add(o, Mul(d, t))) == LengthSquared(d) * (t * t) + 2.0 * Dot(o, d) * t + LengthSquared(o)
  {
    calc {
      LengthSquared(Add(o, Mul(d, t)));
    ==
      (o.x + d.x * t) * (o.x + d.x * t) + (o.y + d.y * t) * (o.y + d.y * t) + (o.z + d.z * t) * (o.z + d.z * t);
    == { SquareExpand(o.x, d.x, t); SquareExpand(o.y, d.y, t); SquareExpand(o.z, d.z, t); }
      (d.x * d.x * (t * t) + 2.0 * (o.x * d.x) * t + o.x * o.x) +
      (d.y * d.y * (t * t) + 2.0 * (o.y * d.y) * t + o.y * o.y) +
      (d.z * d.z * (t * t) + 2.0 * (o.z * d.z) * t + o.z * o.z);
    == { Collect(d.x * d.x, d.y * d.y, d.z * d.z, t * t); Collect(o.x * d.x, o.y * d.y, o.z * d.z, 2.0 * t); }
      LengthSquared(d) * (t * t) + 2.0 * Dot(o, d) * t + LengthSquared(o);
    }
  }

  lemma SquareExpand(o: real, d: real, t: real)
    ensures (o + d * t) * (o + d * t) == d * d * (t * t) + 2.0 * (o * d) * t + o * o
  {
  }

  lemma Collect(a: real, b: real, c: real, k: real)
    ensures a * k + b * k + c * k == (a + b + c) * k
  {
  }

  /** With `sqrtd^2 = half_b^2 - a c`, the quadratic factors through the two roots. */
  lemma Factor(a: real, hb: real, c: real, sq: real, t: real)
    requires sq * sq == hb * hb - a * c
    ensures a * Quadratic(a, hb, c, t) == (a * t + hb + sq) * (a * t + hb - sq)
  {
    calc {
      (a * t + hb + sq) * (a * t + hb - sq);
    ==
      (a * t + hb) * (a * t + hb) - sq * sq;
    ==
      (a * t + hb) * (a * t + hb) - (hb * hb - a * c);
    ==
      a * (a * (t * t) + 2.0 * hb * t + c);
    }
  }

  lemma ProductZero(x: real, y: real)
    ensures x * y == 0.0 <==> x == 0.0 || y == 0.0
  {
  }

  lemma LinearRoot(a: real, b: real, t: real)
    requires a != 0.0
    ensures a * t + b == 0.0 <==> t == -b / a
  {
    if t == -b / a {
      assert a * (-b / a) == -b;
    }
  }

  /** For `a != 0` the roots of the quadratic are exactly the two candidates. */
  lemma QuadraticRoots(a: real, hb: real, c: real, sq: real, t: real)
    requires a != 0.0 && sq * sq == hb * hb - a * c
    ensures Quadratic(a, hb, c, t) == 0.0 <==> t == (-hb - sq) / a || t == (-hb + sq) / a
  {
    Factor(a, hb, c, sq, t);
    ProductZero(a, Quadratic(a, hb, c, t));
    ProductZero(a * t + hb + sq, a * t + hb - sq);
    LinearRoot(a, hb + sq, t);
    LinearRoot(a, hb - sq, t);
    assert -(hb + sq) == -hb - sq;
    assert -(hb - sq) == -hb + sq;
  }

  /** A negative discriminant leaves the quadratic without real roots. */
  lemma NoRealRoot(a: real, hb: real, c: real, t: real)
    requires a > 0.0 && hb * hb - a * c < 0.0
    ensures Quadratic(a, hb, c, t) != 0.0
  {
    calc {
      a * Quadratic(a, hb, c, t);
    ==
      (a * t + hb) * (a * t + hb) - (hb * hb - a * c);
    }
    SquareNonNegative(a * t + hb);
  }

  /** The near root does not exceed the far root. */
  lemma RootsOrdered(a: real, hb: real, sq: real)
    requires a > 0.0 && sq >= 0.0
    ensures (-hb - sq) / a <= (-hb + sq) / a
  {
    var k := 1.0 / a;
    assert (-hb - sq) / a == (-hb - sq) * k;
    assert (-hb + sq) / a == (-hb + sq) * k;
    MulLe(k, -hb - sq, -hb + sq);
  }

  /** The two candidates are the roots of the sphere, and the only ones. */
  lemma RootsAreRoots(s: Sphere, r: Ray, sqrtd: real)
    requires r.dir != Zero && Discriminant(s, r) >= 0.0 && IsSqrt(Discriminant(s, r), sqrtd)
    ensures forall t :: IsRoot(s, r, t) <==> t == NearRoot(s, r, sqrtd) || t == FarRoot(s, r, sqrtd)
    ensures NearRoot(s, r, sqrtd) <= FarRoot(s, r, sqrtd)
  {
    LengthSquaredPositive(r.dir);
    forall t
      ensures IsRoot(s, r, t) <==> t == NearRoot(s, r, sqrtd) || t == FarRoot(s, r, sqrtd)
    {
      IsRootQuadratic(s, r, t);
      QuadraticRoots(A(r), HalfB(s, r), C(s, r), sqrtd, t);
    }
    RootsOrdered(A(r), HalfB(s, r), sqrtd);
  }

  /** Without a real discriminant the ray misses the sphere. */
  lemma NoRoots(s: Sphere, r: Ray)
    requires r.dir != Zero && Discriminant(s, r) < 0.0
    ensures forall t :: !IsRoot(s, r, t)
  {
    LengthSquaredPositive(r.dir);
    forall t
      ensures !IsRoot(s, r, t)
    {
      IsRootQuadratic(s, r, t);
      NoRealRoot(A(r), HalfB(s, r), C(s, r), t);
    }
  }

  /** The hit is the nearest root strictly inside `rayT`, and there is no hit exactly when
      no root lies strictly inside `rayT`. */
  lemma SphereHitNearest(s: Sphere, r: Ray, rayT: Interval, sqrtd: real)
    requires r.dir != Zero && s.radius != 0.0
    requires Discriminant(s, r) >= 0.0 ==> IsSqrt(Discriminant(s, r), sqrtd)
    ensures SphereHit(s, r, rayT, sqrtd).Some? ==>
              forall t :: IsRoot(s, r, t) && Surrounds(rayT, Finite(t)) ==> SphereHit(s, r, rayT, sqrtd).value.t <= t
    ensures SphereHit(s, r, rayT, sqrtd).None? <==> forall t :: IsRoot(s, r, t) ==> !Surrounds(rayT, Finite(t))
  {
    if Discriminant(s, r) < 0.0 {
      NoRoots(s, r);
    } else {
      RootsAreRoots(s, r, sqrtd);
    }
  }

  /** Narrowing the upper end of the range to `c` keeps the hit exactly when it lies
      before `c`: the sphere reports its nearest hit. */
  lemma SphereHitCut(s: Sphere, r: Ray, rayT: Interval, sqrtd: real, c: ExtReal)
    requires r.dir != Zero && s.radius != 0.0
    requires Discriminant(s, r) >= 0.0 ==> IsSqrt(Discriminant(s, r), sqrtd)
    requires Le(c, rayT.upper)
    ensures SphereHit(s, r, Interval(rayT.lower, c), sqrtd) == Cut(SphereHit(s, r, rayT, sqrtd), c)
  {
    if Discriminant(s, r) >= 0.0 {
      RootsAreRoots(s, r, sqrtd);
      var near := NearRoot(s, r, sqrtd);
      var far := FarRoot(s, r, sqrtd);
      LeTotalOrder(Finite(near), c, rayT.upper);
      LeTotalOrder(Finite(far), c, rayT.upper);
      LeTotalOrder(Finite(near), Finite(far), c);
    }
  }
}

=== FILE: vec3.dfy ===
/** Three-component vectors over the reals (`Vector` in vec3.py, also used as `Point`
    and `RGB`). */
module Vectors {
  import opened Options

  datatype Vec3 = Vec3(x: real, y: real, z: real)

  type Point = Vec3
  type Color = Vec3

  const Zero: Vec3 := Vec3(0.0, 0.0, 0.0)

  /** The `near_zero` threshold `1e-8`. */
  const NearZeroBound: real := 0.00000001

  /** `-v`. */
  function Neg(v: Vec3): (n: Vec3)
    ensures Add(v, n) == Zero
  {
    Vec3(-v.x, -v.y, -v.z)
  }

  /** `v + w`. */
  function Add(v: Vec3, w: Vec3): (s: Vec3)
  {
    Vec3(v.x + w.x, v.y + w.y, v.z + w.z)
  }

  /** `v - w`. */
  function Sub(v: Vec3, w: Vec3): (d: Vec3)
    ensures d == Add(v, Neg(w))
    ensures Add(d, w) == v
  {
    Vec3(v.x - w.x, v.y - w.y, v.z - w.z)
  }

  /** `v * s` for a scalar `s`; `s * v` delegates to it through `__rmul__`. */
  function Mul(v: Vec3, s: real): (p: Vec3)
    ensures s == 1.0 ==> p == v
    ensures s == 0.0 ==> p == Zero
  {
    Vec3(v.x * s, v.y * s, v.z * s)
  }

  /** `u * v` for two vectors: the componentwise product. */
  function Hadamard(u: Vec3, v: Vec3): (p: Vec3)
    ensures u == Vec3(1.0, 1.0, 1.0) ==> p == v
  {
    Vec3(u.x * v.x, u.y * v.y, u.z * v.z)
  }

  /** `v / s`: multiplication by `1 / s`; `None` is the `ValueError` raised for `s == 0`. */
  function Div(v: Vec3, s: real): (q: Option<Vec3>)
    ensures q.None? <==> s == 0.0
    ensures q.Some? ==> Mul(q.value, s) == v
  {
    if s != 0.0 then Some(Mul(v, 1.0 / s)) else None
  }

  /** `dot(v1, v2)`. */
  function Dot(v: Vec3, w: Vec3): real {
    v.x * w.x + v.y * w.y + v.z * w.z
  }

  /** `length_squared()`. */
  function LengthSquared(v: Vec3): (l: real)
    ensures l == Dot(v, v)
  {
    Dot(v, v)
  }

  /** The squared length is never negative. */
  lemma LengthSquaredNonNegative(v: Vec3)
    ensures LengthSquared(v) >= 0.0
  {
    calc {
      LengthSquared(v);
    ==
      v.x * v.x + v.y * v.y + v.z * v.z;
    >= { SquaresNonNegative(v.x, v.y, v.z); }
      0.0;
    }
  }

  /** The squared length is zero exactly for the zero vector. */
  lemma LengthSquaredPositive(v: Vec3)
    ensures v == Zero ==> LengthSquared(v) == 0.0
    ensures v != Zero ==> LengthSquared(v) > 0.0
  {
    if v != Zero {
      calc {
        LengthSquared(v);
      ==
        v.x * v.x + v.y * v.y + v.z * v.z;
      > { SquaresPositive(v.x, v.y, v.z); }
        0.0;
      }
    }
  }

  lemma SquaresNonNegative(a: real, b: real, c: real)
    ensures a * a + b * b + c * c >= 0.0
  {
    SquareNonNegative(a);
    SquareNonNegative(b);
    SquareNonNegative(c);
  }

  lemma SquaresPositive(a: real, b: real, c: real)
    requires a != 0.0 || b != 0.0 || c != 0.0
    ensures a * a + b * b + c * c > 0.0
  {
    SquareNonNegative(a);
    SquareNonNegative(b);
    SquareNonNegative(c);
  }

  /** `cross(v1, v2)`. */
  function Cross(a: Vec3, b: Vec3): (c: Vec3)
    ensures Dot(c, a) == 0.0 && Dot(c, b) == 0.0
  {
    Vec3(a.y * b.z - a.z * b.y, -a.x * b.z + a.z * b.x, a.x * b.y - a.y * b.x)
  }

  function Abs(r: real): real {
    if r < 0.0 then -r else r
  }

  /** `near_zero()`: every component is below `1e-8` in magnitude. */
  predicate NearZero(v: Vec3) {
    Abs(v.x) < NearZeroBound && Abs(v.y) < NearZeroBound && Abs(v.z) < NearZeroBound
  }

  /** `reflect(v, n)`: `v - 2 * dot(v, n) * n`. */
  function Reflect(v: Vec3, n: Vec3): (r: Vec3)
    ensures Sub(v, r) == Mul(n, 2.0 * Dot(v, n))
  {
    Sub(v, Mul(n, 2.0 * Dot(v, n)))
  }

  /** A near-zero vector is short, and the zero vector is near zero. */
  lemma NearZeroIsShort(v: Vec3)
    ensures NearZero(Zero)
    ensures NearZero(v) ==> LengthSquared(v) < 3.0 * NearZeroBound * NearZeroBound
  {
    if NearZero(v) {
      SquareBelow(v.x, NearZeroBound);
      SquareBelow(v.y, NearZeroBound);
      SquareBelow(v.z, NearZeroBound);
    }
  }

  lemma SquareBelow(a: real, b: real)
    requires Abs(a) < b
    ensures a * a < b * b
  {
    var m := Abs(a);
    assert a * a == m * m;
    calc {
      m * m;
    <= { MulLe(m, m, b); }
      m * b;
    < { MulLt(b, m, b); }
      b * b;
    }
  }

  lemma SquareNonNegative(a: real)
    ensures a * a >= 0.0
    ensures a != 0.0 ==> a * a > 0.0
  {
    if a < 0.0 {
      assert a * a == (-a) * (-a);
    }
  }

  lemma MulLe(k: real, a: real, b: real)
    requires k >= 0.0 && a <= b
    ensures k * a <= k * b
  {
  }

  lemma MulLt(k: real, a: real, b: real)
    requires k > 0.0 && a < b
    ensures a * k < b * k
  {
  }

  /** The algebra of the componentwise operators: commutativity and symmetry of `dot`. */
  lemma VectorAlgebra(u: Vec3, v: Vec3)
    ensures Add(u, v) == Add(v, u)
    ensures Hadamard(u, v) == Hadamard(v, u)
    ensures Dot(u, v) == Dot(v, u)
  {
  }

  /** Scaling a vector by `s` scales its squared length by `s * s`. */
  lemma LengthSquaredScale(v: Vec3, s: real)
    ensures LengthSquared(Mul(v, s)) == s * s * LengthSquared(v)
  {
    ScaleSquare(v.x, s);
    ScaleSquare(v.y, s);
    ScaleSquare(v.z, s);
  }

  lemma ScaleSquare(a: real, s: real)
    ensures (a * s) * (a * s) == s * s * (a * a)
  {
  }

  /** Subtraction is addition of the negation, negation is an involution. */
  lemma SubIsAddNeg(a: Vec3, b: Vec3)
    ensures Sub(a, b) == Add(a, Neg(b))
    ensures Neg(Neg(a)) == a
    ensures Sub(a, a) == Zero
  {
  }

  /** The cross product is anticommutative. */
  /** The Lagrange identity: `|a x b|^2 == |a|^2 |b|^2 - dot(a, b)^2`, which fixes the
      length of the cross product. */
  lemma CrossLagrange(a: Vec3, b: Vec3)
    ensures LengthSquared(Cross(a, b)) == LengthSquared(a) * LengthSquared(b) - Dot(a, b) * Dot(a, b)
  {
  }

  /** The orientation is right-handed: `x cross y == z`. */
  lemma CrossRightHanded()
    ensures Cross(Vec3(1.0, 0.0, 0.0), Vec3(0.0, 1.0, 0.0)) == Vec3(0.0, 0.0, 1.0)
  {
    var c := Cross(Vec3(1.0, 0.0, 0.0), Vec3(0.0, 1.0, 0.0));
    assert c.x == 0.0 * 0.0 - 0.0 * 1.0;
    assert c.y == -1.0 * 0.0 + 0.0 * 0.0;
    assert c.z == 1.0 * 1.0 - 0.0 * 0.0;
  }

  lemma CrossAnticommutes(a: Vec3, b: Vec3)
    ensures Cross(b, a) == Neg(Cross(a, b))
  {
  }

  lemma DotLinear(a: Vec3, b: Vec3, n: Vec3, s: real)
    ensures Dot(Sub(a, Mul(b, s)), n) == Dot(a, n) - s * Dot(b, n)
  {
    calc {
      Dot(Sub(a, Mul(b, s)), n);
    ==
      (a.x - b.x * s) * n.x + (a.y - b.y * s) * n.y + (a.z - b.z * s) * n.z;
    ==
      (a.x * n.x + a.y * n.y + a.z * n.z) - s * (b.x * n.x + b.y * n.y + b.z * n.z);
    }
  }

  /** For a unit normal, reflection negates the normal component, keeps the length
      and is its own inverse. */
  lemma ReflectUnit(v: Vec3, n: Vec3)
    requires Dot(n, n) == 1.0
    ensures Dot(Reflect(v, n), n) == -Dot(v, n)
    ensures LengthSquared(Reflect(v, n)) == LengthSquared(v)
    ensures Reflect(Reflect(v, n), n) == v
  {
    ReflectNormalComponent(v, n);
    ReflectLength(v, n);
    ReflectBack(v, n, Reflect(v, n), Dot(v, n));
  }

  lemma ReflectLength(v: Vec3, n: Vec3)
    requires Dot(n, n) == 1.0
    ensures LengthSquared(Reflect(v, n)) == LengthSquared(v)
  {
    var d := Dot(v, n);
    var r := Reflect(v, n);
    ReflectNormalComponent(v, n);
    calc {
      Dot(r, r);
    == { DotLinear(v, n, r, 2.0 * d); }
      Dot(v, r) - 2.0 * d * Dot(n, r);
    == { DotSymmetric(n, r); }
      Dot(v, r) + 2.0 * d * d;
    == { DotSymmetric(v, r); DotLinear(v, n, v, 2.0 * d); DotSymmetric(n, v); }
      Dot(v, v) - 2.0 * d * d + 2.0 * d * d;
    }
  }

  lemma DotSymmetric(a: Vec3, b: Vec3)
    ensures Dot(a, b) == Dot(b, a)
  {
  }

  lemma ReflectNormalComponent(v: Vec3, n: Vec3)
    requires Dot(n, n) == 1.0
    ensures Dot(Reflect(v, n), n) == -Dot(v, n)
  {
    var d := Dot(v, n);
    calc {
      Dot(Reflect(v, n), n);
    == { DotLinear(v, n, n, 2.0 * d); }
      d - 2.0 * d * Dot(n, n);
    ==
      -d;
    }
  }

  lemma ReflectBack(v: Vec3, n: Vec3, r: Vec3, d: real)
    requires r == Sub(v, Mul(n, 2.0 * d))
    requires Dot(r, n) == -d
    ensures Reflect(r, n) == v
  {
    assert Reflect(r, n) == Sub(r, Mul(n, -2.0 * d));
  }

  /** `dot` is linear in its first argument. */
  lemma DotAdd(a: Vec3, b: Vec3, c: Vec3)
    ensures Dot(Add(a, b), c) == Dot(a, c) + Dot(b, c)
  {
    calc {
      Dot(Add(a, b), c);
    ==
      (a.x + b.x) * c.x + (a.y + b.y) * c.y + (a.z + b.z) * c.z;
    ==
      (a.x * c.x + a.y * c.y + a.z * c.z) + (b.x * c.x + b.y * c.y + b.z * c.z);
    }
  }

  lemma DotScale(a: Vec3, k: real, c: Vec3)
    ensures Dot(Mul(a, k), c) == k * Dot(a, c)
  {
    calc {
      Dot(Mul(a, k), c);
    ==
      (a.x * k) * c.x + (a.y * k) * c.y + (a.z * k) * c.z;
    ==
      k * (a.x * c.x + a.y * c.y + a.z * c.z);
    }
  }

  lemma DotNeg(a: Vec3, b: Vec3)
    ensures Dot(a, Neg(b)) == -Dot(a, b)
  {
    calc {
      Dot(a, Neg(b));
    ==
      a.x * (-b.x) + a.y * (-b.y) + a.z * (-b.z);
    ==
      -(a.x * b.x + a.y * b.y + a.z * b.z);
    }
  }

  /** `s >= 0` is a square root of `x`: stands in for `math.sqrt`, which the model does not
      compute. */
  predicate IsSqrt(x: real, s: real) {
    s >= 0.0 && s * s == x
  }

  /** Python's `min(a, b)` on two numbers: `a` unless `b` is strictly smaller. */
  function MinReal(a: real, b: real): (m: real)
    ensures m <= a && m <= b && (m == a || m == b)
  {
    if b < a then b else a
  }

  /** `normalize(v)`: `v / v.length()`, with the length supplied as `len`. A zero length
      is the `ValueError` of the division, so it is excluded. */
  function Normalize(v: Vec3, len: real): (u: Vec3)
    requires len != 0.0
    ensures Mul(u, len) == v
  {
    Mul(v, 1.0 / len)
  }

  /** Dividing by the true length gives a unit vector. */
  lemma NormalizeUnit(v: Vec3, len: real)
    requires IsSqrt(LengthSquared(v), len) && len != 0.0
    ensures LengthSquared(Normalize(v, len)) == 1.0
  {
    var k := 1.0 / len;
    LengthSquaredScale(v, k);
    calc {
      LengthSquared(Normalize(v, len));
    ==
      k * k * LengthSquared(v);
    ==
      k * k * (len * len);
    == { ReciprocalSquare(len); }
      1.0;
    }
  }

  lemma ReciprocalSquare(len: real)
    requires len != 0.0
    ensures (1.0 / len) * (1.0 / len) * (len * len) == 1.0
  {
    var k := 1.0 / len;
    assert k * len == 1.0;
    assert k * k * (len * len) == (k * len) * (k * len);
  }

  /** Normalizing by a positive length keeps the sign of every dot product. */
  lemma NormalizeKeepsSign(v: Vec3, len: real, n: Vec3)
    requires len > 0.0
    ensures Dot(Normalize(v, len), n) < 0.0 <==> Dot(v, n) < 0.0
    ensures Dot(Normalize(v, len), n) > 0.0 <==> Dot(v, n) > 0.0
  {
    DotScale(v, 1.0 / len, n);
    PositiveScaleSign(1.0 / len, Dot(v, n));
  }

  lemma PositiveScaleSign(k: real, d: real)
    requires k > 0.0
    ensures k * d < 0.0 <==> d < 0.0
    ensures k * d > 0.0 <==> d > 0.0
  {
    if d < 0.0 {
      assert k * (-d) > 0.0;
    }
  }

  /** The part of `refract` perpendicular to the normal:
      `ratio * (uv + cos_theta * n)` with `cos_theta = min(dot(-uv, n), 1)`. */
  function RefractPerp(uv: Vec3, n: Vec3, ratio: real): Vec3 {
    var cosTheta := MinReal(Dot(Neg(uv), n), 1.0);
    Mul(Add(uv, Mul(n, cosTheta)), ratio)
  }

  /** `refract(uv, n, ratio)`: the perpendicular part plus `-sqrt(|1 - |perp|^2|) * n`,
      with the square root supplied as `root`. */
  function Refract(uv: Vec3, n: Vec3, ratio: real, root: real): (r: Vec3)
    requires IsSqrt(Abs(1.0 - LengthSquared(RefractPerp(uv, n, ratio))), root)
    ensures Sub(r, RefractPerp(uv, n, ratio)) == Mul(n, -root)
  {
    Add(RefractPerp(uv, n, ratio), Mul(n, -root))
  }

  /** For a unit normal and `dot(-uv, n) <= 1`, the perpendicular part is tangent to the
      surface, so the refracted ray leaves through the surface against the normal; when
      the perpendicular part is no longer than 1 the refracted ray has unit length. */
  lemma RefractThroughSurface(uv: Vec3, n: Vec3, ratio: real, root: real)
    requires Dot(n, n) == 1.0 && Dot(Neg(uv), n) <= 1.0
    requires IsSqrt(Abs(1.0 - LengthSquared(RefractPerp(uv, n, ratio))), root)
    ensures Dot(Refract(uv, n, ratio, root), n) == -root
    ensures LengthSquared(RefractPerp(uv, n, ratio)) <= 1.0 ==>
              LengthSquared(Refract(uv, n, ratio, root)) == 1.0
  {
    var perp := RefractPerp(uv, n, ratio);
    PerpTangent(uv, n, ratio);
    var r := Refract(uv, n, ratio, root);
    calc {
      Dot(r, n);
    == { DotAdd(perp, Mul(n, -root), n); }
      Dot(perp, n) + Dot(Mul(n, -root), n);
    == { DotScale(n, -root, n); }
      -root * Dot(n, n);
    }
    if LengthSquared(perp) <= 1.0 {
      calc {
        LengthSquared(r);
      == { DotAdd(perp, Mul(n, -root), r); }
        Dot(perp, r) + Dot(Mul(n, -root), r);
      == { DotScale(n, -root, r); }
        Dot(perp, r) - root * Dot(n, r);
      == { DotSymmetric(n, r); }
        Dot(perp, r) + root * root;
      == { DotSymmetric(perp, r); DotAdd(perp, Mul(n, -root), perp); }
        Dot(perp, perp) + Dot(Mul(n, -root), perp) + root * root;
      == { DotScale(n, -root, perp); DotSymmetric(n, perp); }
        Dot(perp, perp) + root * root;
      }
    }
  }

  lemma PerpTangent(uv: Vec3, n: Vec3, ratio: real)
    requires Dot(n, n) == 1.0 && Dot(Neg(uv), n) <= 1.0
    ensures Dot(RefractPerp(uv, n, ratio), n) == 0.0
  {
    var c := Dot(Neg(uv), n);
    DotSymmetric(Neg(uv), n);
    DotNeg(n, uv);
    DotSymmetric(n, uv);
    calc {
      Dot(RefractPerp(uv, n, ratio), n);
    == { DotScale(Add(uv, Mul(n, c)), ratio, n); }
      ratio * Dot(Add(uv, Mul(n, c)), n);
    == { DotAdd(uv, Mul(n, c), n); DotScale(n, c, n); }
      ratio * (Dot(uv, n) + c * Dot(n, n));
    ==
      ratio * (Dot(uv, n) + c);
    ==
      0.0;
    }
  }
}
